=== FILE: README.md ===
# story-telling-app in Dafny

A Dafny model of the application logic of the story-telling-app server, a Fastify + Kysely
(PostgreSQL) backend for a small social writing platform. Users register and log in. They follow
each other, publish posts, comment, like, report, and view profiles. Notifications record the
follows, likes and profile visits.

The relational store is an immutable `Schema.Store` holding eight tables (`users`, `follows`, `posts`,
`comments`, `notifications`, `reportedPosts`, `postsLikes`, `tokens`). Each table is a `seq` of rows,
with row shapes taken from `src/config/schemas.ts`. `Schema.Valid` holds the key and width constraints
the migrations declare: primary keys on the generated ids, which are uuids in their canonical spelling; UNIQUE on `users.email`,
`reportedPosts.postId` and `tokens.token`; and the widths of the `varchar` columns of `users` and
`tokens`. The `uuid` type of the other id columns is not part of it. `follows` and `postsLikes` have no uniqueness, so they may
hold duplicate rows.

Every service is a pure transition. It returns the service's answer together with the store it
leaves (`Effect`). Queries are stated through membership and multisets, never through row order.

Modules:

- `Tables`: SELECT/DELETE (`Filter`), UPDATE (`Update`), `executeTakeFirst` (`First`), and key
  uniqueness.
- `Schema`: rows, the store, its constraints, the by-id and by-email lookups, and PostgreSQL's `uuid`
  input syntax and canonical spelling.
- `Session` (`src/utils/token.ts`): the token allow-list with one-shot revocation. jsonwebtoken's
  `sign`, `verify` and `decode` are an uninterpreted `Jwt` record constrained by `Session.Sound`.
- `Gate` (`src/auth/index.ts`): the authorization hook, its route list and its 400/401 decision.
- `UserServices` (`src/user/user.services.ts`): registration, login, account deletion and the follow
  graph.
- `UserProviders` (`src/user/user.providers.ts`): the registration validation chain and password
  policy, login's status mapping, and the ownership checks of the follow, unfollow and delete
  handlers. The `validator` library is an uninterpreted `Validator` record.
- `FeedServices` (`src/feed/index.services.ts`): posts, comments, likes, reports and notifications.
- `Password` (`src/utils/password.ts`): `encryptPassWord` and `isSamePassWord` over bcryptjs. bcryptjs's
  `compare` and `hash` are an uninterpreted `Bcrypt` record; its `getSalt` is written out.
- `ProfileServices` (`src/profile/profile.services.ts`): profile views, renaming and the password
  change.
- `System`: every writing request as one `Call`, replayed in sequence, plus scenario lemmas that
  chain several services.

Behaviour the code has and the model keeps:

- Un-awaited single Promises used as booleans are truthy. So login never compares passwords,
  `followingThisUser` is always true, and `updateUserMame` always updates.
- Un-awaited `Promise.all` writes are applied in sequence. A write the database rejects changes
  nothing. The rejection is unhandled, and what the process then does is not modelled (see
  "Left out").
- Reading a field of `undefined` (a lookup that found no row) is `Outcome.Threw(TypeError)`.
- An INSERT that breaks a UNIQUE constraint is `Outcome.Threw(UniqueViolation)`.
- A query comparing a `uuid` column with a string that is not uuid input is
  `Outcome.Threw(InvalidUuidSyntax)`. Uuid input is compared by the uuid it spells: braces, hyphens
  and upper-case digits do not matter (`Schema.Spelling`), and a `uuid` column holds the canonical
  lower-case 8-4-4-4-12 spelling.
- bcryptjs's `getSalt` throws for a string that is not a 60-character hash:
  `Outcome.Threw(IllegalHashLength)`.
- A value longer than its `varchar(n)` column is `Outcome.Threw(ValueTooLong)`, unless the excess
  characters are all spaces, which PostgreSQL cuts off (`Schema.Varchar`).
- `UserProviders.StrongPassword` counts characters. validator tallies the classes per code point and
  measures the length in UTF-16 units. Every character of the four counted classes, `£` included,
  is a single code point, so the class counts agree. Only the length can differ, and it never decides, because every accepted password has at
  least 9 class characters (`UserProviders.StrongPasswordHasNineCharacters`).
- Generated user and post ids are parameters required to be `Fresh`: the canonical spelling,
  unused in their table. A generated notification id is only required to be unused.
- The clock (`now`, in seconds) is a parameter.

Behaviour of the code a reader might not expect:

- Login does not check the password.
- Registration checks only upper bounds on the birth date.
- A country longer than 20 characters, or an email or password longer than 255, makes registration
  throw in the database.
- An empty follower or followee id is answered 400, after which the follow or unfollow query
  rejects the empty id.
- Self-follow is allowed, so the self-loop edge that account deletion removes can exist.
- Creating a post does not check the title or the text.
- The comment existence check compares the uuid column `postId` with `''`, so every comment request
  is rejected by the database and no comment is ever stored.
- A password change never changes the password. It looks the user up by the new password and, on a
  match, takes its salt from `getSalt('')`, which throws.
- A profile view writes the old view count back.
- The gate verifies the token before it checks the content-type.
- No code inserts into `tokens`, so even a fresh token fails verification.
- A second report of a post is a rejected INSERT, not a returned failure.

## Model

| member | source | states |
|---|---|---|
| Schema.SelectUserById | src/profile/profile.services.ts:11-14 | A text that is not uuid input makes the query on `users.id` reject. Otherwise a user comes iff one is stored whose id is the uuid the text spells, and it is such a row. |
| Schema.SelectPostById | src/feed/index.services.ts:55 | A text that is not uuid input makes the query on `posts.postId` reject. Otherwise a post comes iff one is stored whose id is the uuid the text spells, and it is such a row. |
| Schema.Spelling | src/config/migrations/user.ts:9 | Every uuid input denotes a uuid, written in the canonical lower-case 8-4-4-4-12 spelling that a `uuid` column holds. |
| Schema.CanonicalSpelling | src/config/migrations/posts.ts:9 | The canonical spelling that `gen_random_uuid()` produces is uuid input and denotes itself. |
| Schema.CanonicalFrom | src/config/migrations/posts.ts:9 | Reading the digits of a canonical spelling and printing them again gives the same text. |
| Schema.UpperCaseBytes | src/config/migrations/user.ts:9 | Upper-casing uuid input keeps it uuid input with the same digit values. |
| Schema.UpperCaseSameUuid | src/config/migrations/user.ts:9 | The upper-case spelling of a stored uuid denotes that uuid. |
| Schema.UpperCaseIdFindsUser | src/profile/profile.services.ts:11-14 | In a valid store, looking a user up by the upper-case spelling of its id finds that user. |
| Schema.Varchar | src/config/migrations/user.ts:10-15 | PostgreSQL accepts a `varchar(n)` value iff it has at most n characters or everything past the n-th is spaces. It stores the value unchanged when it is short enough, and otherwise its first n characters. Any other value is rejected as too long. |
| UserServices.StoredFields | src/config/migrations/user.ts:10-15 | The registration values go through the width rules of `email varchar(255)`, `password varchar(255)`, `country varchar(20)` and `gender varchar(6)`. One value too long rejects the row. Name and birth date pass unchanged. |
| UserServices.ShortValuesStoredVerbatim | src/config/migrations/user.ts:10-15 | Values within their widths are stored exactly as given. |
| Session.VerifyToken | src/utils/token.ts:10-27 | An unlisted or empty token fails and nothing changes. A listed token that jsonwebtoken accepts yields its claims and nothing changes. A listed token that jsonwebtoken rejects fails and loses exactly its own row; every other row keeps its multiplicity. Verification never adds a row and keeps the constraints. |
| Session.CreateToken | src/utils/token.ts:29-32 | The token decodes to the payload with `exp = now + 1800`. It verifies exactly at instants before `now + 30 * 60`. It takes no store, so issuing writes nothing. |
| Session.DecodeToken | src/utils/token.ts:34-38 | Decoding agrees with verification whenever verification succeeds. It reads neither the allow-list nor the clock. |
| Session.RevokedTokenFailsAgain | src/utils/token.ts:13-26 | Once verification has revoked a token, any later verification of it fails and writes nothing. |
| Session.IssuedButUnlistedTokenFails | src/utils/token.ts:10-32 | A freshly issued token is cryptographically valid, yet fails verification because it has no row in the allow-list. |
| Session.DecodeIgnoresExpiry | src/utils/token.ts:34-38 | An expired token still decodes to its claims, while verifying it fails. |
| Gate.CheckUserAuthorization | src/auth/index.ts:4-52 | An unlisted url gets no reply and no token lookup. For a listed url the store is what verification leaves. 400 is sent iff the url is listed and the method is POST/PUT/DELETE without exactly `application/json`. 401 is sent iff the url is listed and verification failed. The replies are one of [], [400], [401], [400, 401]. |
| Gate.VerificationIndependentOfContentType | src/auth/index.ts:30-43 | Method and content-type influence neither the 401 decision nor the store. |
| Gate.GetNeverBadRequest | src/auth/index.ts:33-38 | A GET never receives the 400. |
| Gate.BothRepliesToOneRequest | src/auth/index.ts:35-50 | There is no early return. For a POST to a listed route without a content-type and with an unlisted token, the gate sends 400 and then tries to send 401; only the 400 reaches the client. |
| Gate.QueryStringBypassesGate | src/auth/index.ts:28-30 | Membership is exact string equality, so a listed route with a query string appended gets no reply and no token lookup. |
| Gate.UnlistedPathsExactly | src/routes/index.ts:42-63 | A path is among the nine unlisted ones iff it is registered with the router and missing from the gate's list. |
| Gate.RegisteredButUnprotected | src/routes/index.ts:42-63 | Nine registered routes are missing from the gate's list, and requests to them pass the gate untouched. Five are missing through typos: post, like, unlike and view under `/api/v1/v1/`, and post search as `/api/v1/osts/search`. The comment route is listed as `/api/v1/comment`. Register, login and allFromUser are not listed at all. |
| UserServices.RegisterUser | src/user/user.services.ts:7-41 | A taken email answers "not available" and changes nothing. Otherwise a value too long for its column rejects the INSERT. So does an email that becomes a registered one once its trailing spaces are cut off. Both leave the store unchanged. Otherwise exactly one row is inserted, with the stored values, the password unhashed, `topWriter = false`, `isOnline = false` and `profileViews = 0`. Success iff the user table grew by one. Constraints are kept. |
| UserServices.LongCountryRejected | src/user/user.services.ts:23-35 | Registering with the country "United States of America" (24 characters) throws on the column width, even with a free email, and writes nothing. |
| UserServices.RegisterTwiceFails | src/user/user.services.ts:10-21 | After a successful registration, registering the same email again fails and changes nothing. For an email within its width, the answer is "not available". |
| UserServices.LogUser | src/user/user.services.ts:43-80 | Unknown email iff no user has it. The "check your password" answer never occurs. A login always names an existing user with that email and carries the token for {name, userId, email}. |
| UserServices.LoginIgnoresPassword | src/user/user.services.ts:50-53 | Two logins that differ only in the password give the same answer. |
| UserServices.DeleteUser | src/user/user.services.ts:108-133 | For a uuid id, the user's row, notifications, comments and posts are removed and every other row stays. Only the self-loop follow edge is removed, with every other edge keeping its multiplicity. Rows are matched by the uuid the id spells. For an id that is not uuid input, every DELETE rejects and nothing changes. The answer is always a success. The likes, reports and tokens tables are untouched. |
| UserServices.DeleteUserKeepsIncidentEdges | src/user/user.services.ts:113-116 | Follow edges between the deleted user and any other user survive in both directions, and so do likes and reports. |
| UserServices.JoinFollowers | src/user/user.services.ts:135-147 | A summary is listed iff some user with that summary has an edge towards the given user. |
| UserServices.JoinFollowees | src/user/user.services.ts:149-161 | A summary is listed iff some user with that summary is followed by the given user. |
| UserServices.JoinFollowersPerEdge | src/user/user.services.ts:135-147 | With unique user ids, a user is listed among the followers once per stored edge from that user, so a duplicated edge lists the user twice. |
| UserServices.JoinFolloweesPerEdge | src/user/user.services.ts:149-161 | With unique user ids, a user is listed among the followees once per stored edge towards that user. |
| UserServices.FollowersFolloweesDual | src/user/user.services.ts:135-161 | Between existing users, a is among b's followers iff b is among a's followees iff the edge (a, b) is stored. |
| UserServices.FollowAUser | src/user/user.services.ts:163-192 | An id that is not uuid input rejects the first query, and nothing is written. The answer is never a success. Ids are compared and stored as the uuids they spell. An existing edge means "already following" and no change. Otherwise exactly one edge is added, and one unread "Someone followed you." notification for the followee; self-follow is allowed. |
| UserServices.FollowTwiceChangesNothing | src/user/user.services.ts:167-184 | A second follow answers "already following", or rejects for ids that are not uuid input, and changes nothing. |
| UserServices.FollowInOtherCaseChangesNothing | src/user/user.services.ts:167-184 | After following by two stored ids, following again by their upper-case spellings answers "already following" and changes nothing, because the SELECT compares uuids. |
| UserServices.UnfollowAUser | src/user/user.services.ts:194-205 | An id that is not uuid input rejects the DELETE, and nothing changes. Otherwise every edge between the uuids the two ids spell is removed. Every other edge keeps its multiplicity and all other tables are untouched. The answer is not a success. |
| UserServices.UnfollowIdempotent | src/user/user.services.ts:194-199 | Unfollowing twice leaves the same store as unfollowing once. |
| UserServices.FollowingThisUser | src/user/user.services.ts:207-216 | The answer is true for every pair. |
| UserServices.FollowingThisUserWithoutEdge | src/user/user.services.ts:209-215 | It answers true for a pair with no stored edge. |
| UserProviders.ClassCountsPartition | src/user/user.providers.ts:32-38 | The five character classes partition every password. |
| UserProviders.StrongPasswordHasNineCharacters | src/user/user.providers.ts:32-38 | The class minimums sum to 9, so every accepted password has at least 9 characters and the length minimum of 8 never decides. |
| UserProviders.StrengthSurvivesAppend | src/user/user.providers.ts:32-38 | Appending characters to a strong password keeps it strong. |
| UserProviders.CheckPasswordStrength | src/user/user.providers.ts:32-38 | A one-pass tally accepts a password iff it has length ≥ 8, ≥ 2 digits, ≥ 2 symbols, ≥ 4 lowercase and ≥ 1 uppercase. |
| UserProviders.Register | src/user/user.providers.ts:18-68 | At most one reply is sent. 400 with the invalid-values message iff the data is invalid. Otherwise 403 with the weak-password message iff the password is weak, whatever the birth date. Otherwise 403 with the birth-date message iff day > 31, month > 12 or year ≥ 2020. A failed check leaves the store unchanged. Otherwise the normalised email is registered and the service's answer is sent, with 200 on success and 500 otherwise. The handler itself sends nothing iff the registration rejects; Fastify's error handler then answers, outside this model. 200 is sent iff a row was added, which happens iff the email is free both as given and as stored and the values fit their columns. |
| UserProviders.Login | src/user/user.providers.ts:70-84 | An invalid email is sent 400, and the login still runs and is answered a second time. The last status is 200 iff a user has the email, otherwise 403. |
| UserProviders.FollowUser | src/user/user.providers.ts:149-167 | It throws iff the token does not decode or an id is not uuid input. When it throws, the store is unchanged. 400 is sent first iff an id is empty, and the handler then throws. 401 is sent iff the decoded user differs from the follower, and the follow still happens. The last status of a completed run is 500. Only 400, 401 and 500 are sent, each at most once. |
| UserProviders.UnFollowUser | src/user/user.providers.ts:169-187 | It throws iff the token does not decode or an id is not uuid input. When it throws, the store is unchanged. 400 is sent first iff an id is empty, and the handler then throws. 401 is sent iff the decoded user differs from the follower, and the unfollow still happens. The last status of a completed run is 500. Only 400, 401 and 500 are sent, each at most once. |
| UserProviders.DeleteUsersFromSystem | src/user/user.providers.ts:100-118 | It throws iff the token does not decode. 400 is sent first iff the id is empty, and then nothing is deleted. 401 is sent iff the decoded user differs from the target, and the deletion still happens. The last status is 200. Only 400, 401 and 200 are sent, each at most once. |
| UserProviders.ForeignTokenStillDeletes | src/user/user.providers.ts:113-115 | In a valid store, a token naming someone else still deletes the target account, after a 401. |
| FeedServices.PostStory | src/feed/index.services.ts:24-50 | An answer comes iff the author exists, and then exactly one post with zero counts is inserted. Otherwise the result is `undefined` and nothing changes. |
| FeedServices.PostComment | src/feed/index.services.ts:52-74 | Every call rejects with the uuid syntax error of the `''` lookup, and nothing is written, whatever the comment names. |
| FeedServices.UserDeletePost | src/feed/index.services.ts:76-96 | A missing post throws. A non-author gets code 403 and nothing changes. The author removes the rows with that post id and nothing else. |
| FeedServices.AuthorDeletesExactlyOnePost | src/feed/index.services.ts:79-89 | In a valid store the author's deletion shrinks the posts table by exactly one. |
| FeedServices.GetAllUserPosts | src/feed/index.services.ts:98-115 | Posts are returned iff the user exists. They are exactly that author's posts. |
| FeedServices.GetAllNotificationsFromUser | src/feed/index.services.ts:132-149 | The list is exactly the user's notifications. `unread` is the number of unread ones, and it is 0 iff all of them are read. |
| FeedServices.SetAllNotificationsRead | src/feed/index.services.ts:151-165 | Position by position, the user's notifications become read. Every other row, and every content, stays. |
| FeedServices.ReadAllLeavesNoUnread | src/feed/index.services.ts:132-165 | Afterwards the user's listing reports `unread = 0` with as many notifications as before. |
| FeedServices.ReadAllIdempotent | src/feed/index.services.ts:151-165 | Marking all read twice leaves the same store as marking once. |
| FeedServices.ReportPost | src/feed/index.services.ts:167-188 | A missing post is refused with no change. An already reported post throws on the UNIQUE constraint with no change. Otherwise exactly one report row is inserted. |
| FeedServices.ReportTwiceThrows | src/feed/index.services.ts:167-188 | After a successful report, a second report of the same post, by anyone, throws. |
| FeedServices.LikeAPost | src/feed/index.services.ts:213-248 | The like row is always added, with no duplicate check. It throws iff the liker or the post is missing, and then nothing else is written. Otherwise it adds exactly one unread "<first name> liked your post" notification for the post's author. |
| FeedServices.ViewPost | src/feed/index.services.ts:250-279 | It throws iff the post is missing. Otherwise the answer is a stored row with that id, except that `likesNumber` is the number of like rows for the post and `likedByUser` holds iff the viewer's like row exists. |
| FeedServices.UnlikeAPost | src/feed/index.services.ts:295-306 | Every (post, user) like row is removed. Every other like row keeps its multiplicity, and all other tables are untouched. |
| Password.GetSalt | src/utils/password.ts:4 | bcryptjs's `getSalt` succeeds iff the text is 60 characters long, and the salt is its 29-character prefix. Otherwise it throws "Illegal hash length". |
| Password.EncryptPassWord | src/utils/password.ts:3-7 | With its salt from `getSalt('')`, hashing rejects for every password. |
| ProfileServices.UpdatePassWord | src/profile/profile.services.ts:4-35 | The old password is compared against the row whose id is the uuid the new password spells. A new password that is not uuid input rejects the lookup, and no such row throws. A mismatch gives code 401. A match throws in `encryptPassWord`. The success answer never comes and the store never changes. |
| ProfileServices.PasswordChangeChecksWrongRow | src/profile/profile.services.ts:11-15 | Even the right old password for the caller's own row fails when no user's id is the uuid the new password spells: the lookup rejects or `loggedUser.password` throws. |
| ProfileServices.UpdateUserMame | src/profile/profile.services.ts:37-55 | The answer is always a success. Only the name of the rows with that id changes. |
| ProfileServices.ViewProfile | src/profile/profile.services.ts:57-84 | It throws iff the target or the viewer is missing or absent, and then nothing is written. Otherwise exactly one unread visit notification for the target is inserted. The profile is returned with views + 1 while the stored count stays as it was. |
| ProfileServices.UserViewOwnProfile | src/profile/profile.services.ts:86-97 | The answer is `success: false`. A profile comes iff the user exists, and it is that user's profile. |
| System.Step | src/routes/index.ts:42-63 | No request adds a token. Only the gate touches the allow-list. Every request keeps the constraints. |
| System.Replay | src/routes/index.ts:42-63 | Along any admissible sequence of requests, the allow-list only loses rows and the constraints hold. |
| System.RevokedStaysRevoked | src/utils/token.ts:20-24 | A token the gate revoked is refused by every later verification, whatever requests come between. |
| System.NothingEverVerifies | src/utils/token.ts:10-32 | From an empty allow-list, after any requests, every token fails verification and every request to a listed route gets 401. |
| System.FollowThenUnfollow | src/user/user.services.ts:163-205 | Follow then unfollow restores the edges. For uuid ids the followee keeps the notification; otherwise both calls reject. Nothing else changes. |
| System.LikeThenUnlike | src/feed/index.services.ts:213-306 | Like then unlike, on a post not yet liked, restores the like rows. The author keeps the notification when the like succeeded. |
| System.OneLikeSeenByViewers | src/feed/index.services.ts:250-279 | After B's like on A's post, the view shows one like, liked by B and not by another user C. |

## Left out

- Full-text search (`searchPost`, `searchUser`): the Postgres `to_tsvector`/`to_tsquery` predicate has no meaning visible in the code.
- `getPostFromFollowings` and `getSuggestedAuthors`: they order by `RANDOM()`, and the former returns an array of unresolved Promises.
- `getPostComments`: a read-only join outside the modelled services.
- The reply plumbing of `src/feed/index.controllers.ts`, `src/profile/profile.providers.ts` and `src/utils/helpers.ts`: it only forwards the service answers as HTTP statuses. The handlers of `src/user/user.providers.ts` are modelled only for `register`, `login`, `followUser`, `unFollowUser` and `deleteUsersFromSystem`; `search`, `getFollowers` and `getFollowees` forward a service answer.
- Server bootstrap, CORS, the connection pool and the migration runner (`src/routes/index.ts`, `src/config/db.ts`). The route list is used only for the paths the gate is compared with. The gate hook is commented out at `src/routes/index.ts:41`; the gate is modelled as the function the hook would run.
- bcryptjs and jsonwebtoken are foreign cryptography. bcryptjs's `compare` and `hash` are uninterpreted functions, and only `getSalt`'s length rule is written out. For jsonwebtoken, `Session.Sound` states only sign/decode/verify agreement and the expiry.
- The validator library's `isEmail` and `normalizeEmail` are uninterpreted functions. `isEmpty` is written out as its default rule, length 0. Its `isStrongPassword` is modelled by `UserProviders.StrongPassword`, with the symbol set written out.
- Promise interleaving and partial failure of the un-awaited writes: this is concurrency. Both writes of a pair are applied in sequence and succeed.
- What happens after an un-awaited write rejects, as the DELETEs of `deleteUser` do for an id that is not uuid input (src/user/user.services.ts:121-127). Nothing awaits or catches that rejection, and Node 15 and later ends the process on an unhandled rejection by default. The model instead answers as the code returns and keeps serving, with the store unchanged by the rejected write.
- `gen_random_uuid()`: ids are parameters assumed `Fresh`.
- Ids taken from requests are assumed to be canonical uuid spellings in the feed and profile services. PostgreSQL compares a `uuid` column with text by the uuid the text spells, and rejects text that is not uuid input. Both are modelled in `postComment` (its `''`), `updatePassWord` (the new password), `followAUser`, `unfollowAUser` and `deleteUser`. The other feed and profile services compare ids as text. There, a malformed id finds no row instead of rejecting the query, and another spelling of a stored uuid finds no row where PostgreSQL finds it. The `uuid` type of the id columns those services fill (authors, likes, reports, comments, notifications) is therefore not a constraint of `Schema.Valid`; the user and post ids are.
- Birth-date parts are integers. JSON also allows fractional numbers, which the checks at src/user/user.providers.ts:40-44 compare as given; they are not modelled.
- A request whose `token` header is absent is modelled as carrying a string token.
- JSON shapes: `content` columns are reduced to their `text` (and, for posts, `title` and `attachments`).
- Session.DecodeToken: a malformed token decodes to None, and the claims' other jsonwebtoken fields (`iat`) are not modelled, because only the payload and `exp` are read by the code.
- UserServices.LogUser: the logged-in row is the first with that email and password, and only its existence and token are stated. Which of several matching rows is chosen depends on row order, which SQL does not fix.
- System.Step: it states the allow-list and the constraints only; per-request effects are stated by the member each case calls.

=== FILE: feed_services.dfy ===
/** The feed services of src/feed/index.services.ts: posts, comments, likes, reports and
    notifications. */
module FeedServices {
  import opened Wrappers
  import opened Tables
  import opened Schema

  const PostAddedMessage := "Post added successufly, manage your post in post panel."

  /** `postStory`: for an existing author, inserts the post with `likesNumber = 0`,
      `commentsNumber = 0` and the column default `likedByUser = false`. For an unknown author the
      function falls off its end and resolves to `undefined` (None). */
  function PostStory(s: Store, authorId: Id, content: Content, newId: Id): (r: Effect<Option<Answer>>)
    requires Fresh(newId, s.posts, PostKey)
    ensures r.out.Some? <==> exists u :: u in s.users && u.id == authorId
    ensures r.out.None? ==> r.store == s
    ensures r.out.Some? ==>
              && r.out.value == Answer(true, PostAddedMessage)
              && r.store == s.(posts := r.store.posts)
              && multiset(r.store.posts) == multiset(s.posts) + multiset{Post(newId, authorId, content, 0, 0, false)}
    ensures Valid(s) ==> Valid(r.store)
  {
    if UserById(s, authorId).Some? then
      var post := Post(newId, authorId, content, 0, 0, false);
      assert Valid(s) ==> Valid(s.(posts := s.posts + [post])) by {
        if Valid(s) {
          AppendKeepsUnique(s.posts, post, PostKey);
        }
      }
      Effect(Some(Answer(true, PostAddedMessage)), s.(posts := s.posts + [post]))
    else
      Effect(None, s)
  }

  /** A comment as the handler passes it on. */
  datatype NewComment = NewComment(authorId: Id, postId: Id, text: string)

  const CommentAddedMessage := "Comment added successfully!"
  const SomethingWentWrongMessage := "Something went wrong"

  /** `postComment`: the existence check compares the uuid column `posts.postId` with the literal
      `''`, which is not uuid input, so the SELECT is rejected on every call: the promise rejects and
      no comment is inserted, whatever the comment names. Past the check (never reached) a row with
      the generated id `newId` would be inserted. */
  function PostComment(s: Store, comment: NewComment, newId: Id): (r: Effect<Outcome<Answer>>)
    ensures r == Effect(Threw(InvalidUuidSyntax), s)
  {
    match SelectPostById(s, "")
    case Threw(failure) => Effect(Threw(failure), s)
    case Returned(None) => Effect(Returned(Answer(false, SomethingWentWrongMessage)), s)
    case Returned(Some(_)) =>
      var row := Comment(newId, comment.authorId, comment.postId, comment.text);
      Effect(Returned(Answer(true, CommentAddedMessage)), s.(comments := s.comments + [row]))
  }

  const PostDeletedMessage := "Your post was deleted successfully!"
  const NotYourPostMessage := "You can not delete this post, it does not belong to you!"

  /** The `{ success, code?, message }` object of the ownership failures. */
  datatype CodedAnswer = CodedAnswer(success: bool, code: Option<int>, message: string)

  /** `userDeletePost`: a missing post makes `givenPost.authorId` throw; the author deletes the post;
      anyone else gets code 403 and nothing changes. */
  function UserDeletePost(s: Store, postId: Id, userId: Id): (r: Effect<Outcome<CodedAnswer>>)
    ensures PostById(s, postId).None? ==> r == Effect(Threw(TypeError), s)
    ensures PostById(s, postId).Some? && PostById(s, postId).value.authorId != userId ==>
              r == Effect(Returned(CodedAnswer(false, Some(403), NotYourPostMessage)), s)
    ensures PostById(s, postId).Some? && PostById(s, postId).value.authorId == userId ==>
              && r.out == Returned(CodedAnswer(true, None, PostDeletedMessage))
              && r.store == s.(posts := r.store.posts)
              && forall p :: p in r.store.posts <==> p in s.posts && p.postId != postId
    ensures Valid(s) ==> Valid(r.store)
  {
    match PostById(s, postId)
    case None => Effect(Threw(TypeError), s)
    case Some(given) =>
      if given.authorId == userId then
        FilterKeepsUnique(s.posts, (p: Post) => p.postId != postId, PostKey);
        Effect(Returned(CodedAnswer(true, None, PostDeletedMessage)),
               s.(posts := Filter(s.posts, (p: Post) => p.postId != postId)))
      else
        Effect(Returned(CodedAnswer(false, Some(403), NotYourPostMessage)), s)
  }

  /** In a valid store the author's deletion removes exactly one row. */
  lemma AuthorDeletesExactlyOnePost(s: Store, post: Post)
    requires Valid(s)
    requires post in s.posts
    ensures var s' := UserDeletePost(s, post.postId, post.authorId).store;
            |s'.posts| == |s.posts| - 1 && post !in s'.posts
  {
    var keep := (p: Post) => p.postId != post.postId;
    assert PostById(s, post.postId).Some?;
    var given := PostById(s, post.postId).value;
    UniqueLookup(s.posts, PostKey, given, post);
    assert multiset(s.posts)[post] == 1 by {
      MultiplicityUnderUniqueKey(s.posts, PostKey, post);
    }
    var s' := UserDeletePost(s, post.postId, post.authorId).store;
    assert s'.posts == Filter(s.posts, keep);
    FilteredSize(s.posts, keep, post);
  }

  lemma MultiplicityUnderUniqueKey<T>(xs: seq<T>, key: T -> Id, x: T)
    requires UniqueKeys(xs, key) && x in xs
    ensures multiset(xs)[x] == 1
  {
    var i :| 0 <= i < |xs| && xs[i] == x;
    forall j | 0 <= j < |xs| && j != i
      ensures xs[j] != x
    {
      if j < i {
        assert key(xs[j]) != key(xs[i]);
      } else {
        assert key(xs[i]) != key(xs[j]);
      }
    }
    assert xs == xs[..i] + [x] + xs[i + 1..];
    assert x !in xs[..i];
    assert x !in xs[i + 1..];
  }

  /** Dropping the rows with `post`'s key, when `post` is the only such row, shrinks the table by one. */
  lemma {:induction false} FilteredSize(xs: seq<Post>, keep: Post -> bool, post: Post)
    requires multiset(xs)[post] == 1 && !keep(post)
    requires forall p :: p in xs && !keep(p) ==> p == post
    ensures |Filter(xs, keep)| == |xs| - 1
    decreases |xs|
  {
    assert xs == [xs[0]] + xs[1..];
    if xs[0] == post {
      assert multiset(xs[1..])[post] == 0;
      FilterAll(xs[1..], keep);
    } else {
      FilteredSize(xs[1..], keep, post);
    }
  }

  lemma {:induction false} FilterAll<T(!new)>(xs: seq<T>, keep: T -> bool)
    requires forall x :: x in xs ==> keep(x)
    ensures Filter(xs, keep) == xs
    decreases |xs|
  {
    if xs != [] {
      FilterAll(xs[1..], keep);
    }
  }

  const UserNotFoundMessage := "User was not found"

  /** What `getAllUserPosts` resolves to. */
  datatype UserPosts = Posts(posts: seq<Post>) | UserNotFound(message: string)

  /** `getAllUserPosts`: the user's posts, or a failure naming a missing user. */
  function GetAllUserPosts(s: Store, userId: Id): (r: UserPosts)
    ensures r.Posts? <==> exists u :: u in s.users && u.id == userId
    ensures r.Posts? ==> forall p :: p in r.posts <==> p in s.posts && p.authorId == userId
  {
    if UserById(s, userId).Some? then Posts(Filter(s.posts, (p: Post) => p.authorId == userId))
    else UserNotFound(UserNotFoundMessage)
  }

  /** What `getAllNotificationsFromUser` returns as `data`. */
  datatype NotificationsView = NotificationsView(unread: nat, notifications: seq<Notification>)

  function Unread(n: Notification): bool { !n.read }

  /** `getAllNotificationsFromUser`: the user's notifications and how many of them are unread. */
  function GetAllNotificationsFromUser(s: Store, userId: Id): (r: NotificationsView)
    ensures forall n :: n in r.notifications <==> n in s.notifications && n.userId == userId
    ensures r.unread == Count(r.notifications, Unread)
    ensures r.unread == 0 <==> forall n :: n in s.notifications && n.userId == userId ==> n.read
  {
    var mine := Filter(s.notifications, (n: Notification) => n.userId == userId);
    NotificationsView(|Filter(mine, Unread)|, mine)
  }

  /** `setAllNotificationsRead`: marks every unread notification of the user read; every other row
      and every content stays as it was. */
  function SetAllNotificationsRead(s: Store, userId: Id): (r: Effect<bool>)
    ensures r.out
    ensures r.store == s.(notifications := r.store.notifications)
    ensures |r.store.notifications| == |s.notifications|
    ensures forall i :: 0 <= i < |s.notifications| ==>
              r.store.notifications[i] ==
                if s.notifications[i].userId == userId then s.notifications[i].(read := true)
                else s.notifications[i]
    ensures Valid(s) ==> Valid(r.store)
  {
    var sel := (n: Notification) => n.userId == userId && !n.read;
    var change := (n: Notification) => n.(read := true);
    UpdateKeepsUnique(s.notifications, sel, change, NotificationKey);
    Effect(true, s.(notifications := Update(s.notifications, sel, change)))
  }

  /** After marking all read, the user's notification listing reports no unread ones and still
      lists the same notification contents. */
  lemma ReadAllLeavesNoUnread(s: Store, userId: Id)
    ensures var s' := SetAllNotificationsRead(s, userId).store;
            && GetAllNotificationsFromUser(s', userId).unread == 0
            && |GetAllNotificationsFromUser(s', userId).notifications|
               == |GetAllNotificationsFromUser(s, userId).notifications|
  {
    var s' := SetAllNotificationsRead(s, userId).store;
    forall n | n in s'.notifications && n.userId == userId
      ensures n.read
    {
      var i :| 0 <= i < |s'.notifications| && s'.notifications[i] == n;
    }
    SameOwnerCount(s.notifications, s'.notifications, userId);
  }

  /** Marking read keeps, position by position, each row's owner, so the user keeps as many rows. */
  lemma {:induction false} SameOwnerCount(ns: seq<Notification>, ms: seq<Notification>, userId: Id)
    requires |ns| == |ms|
    requires forall i :: 0 <= i < |ns| ==> ms[i].userId == ns[i].userId
    ensures |Filter(ms, (n: Notification) => n.userId == userId)|
            == |Filter(ns, (n: Notification) => n.userId == userId)|
    decreases |ns|
  {
    if ns != [] {
      SameOwnerCount(ns[1..], ms[1..], userId);
    }
  }

  /** Marking all read twice is marking once; other users' notifications never change. */
  lemma ReadAllIdempotent(s: Store, userId: Id)
    ensures var s1 := SetAllNotificationsRead(s, userId).store;
            SetAllNotificationsRead(s1, userId).store == s1
  {
  }

  const ReportedMessage := "Thanks for reporting, we'll analyze carefully the content of the post and we'll get back to you soon. "
  const ReportedPostMissingMessage := "The reported post does not exist in our database."

  /** `reportPost`: a missing post is refused; otherwise the report is inserted, and a second report
      of the same post breaks the UNIQUE constraint on `reportedPosts.postId`, so the INSERT throws
      and nothing is stored. */
  function ReportPost(s: Store, postId: Id, userId: Id): (r: Effect<Outcome<Answer>>)
    ensures PostById(s, postId).None? ==> r == Effect(Returned(Answer(false, ReportedPostMissingMessage)), s)
    ensures PostById(s, postId).Some? && (exists rp :: rp in s.reportedPosts && rp.postId == postId) ==>
              r == Effect(Threw(UniqueViolation), s)
    ensures r.out == Returned(Answer(true, ReportedMessage)) <==>
              PostById(s, postId).Some? && forall rp :: rp in s.reportedPosts ==> rp.postId != postId
    ensures r.out.Returned? && r.out.value.success ==>
              && r.store == s.(reportedPosts := r.store.reportedPosts)
              && multiset(r.store.reportedPosts) == multiset(s.reportedPosts) + multiset{ReportedPost(userId, postId)}
    ensures Valid(s) ==> Valid(r.store)
  {
    if PostById(s, postId).None? then
      Effect(Returned(Answer(false, ReportedPostMissingMessage)), s)
    else if First(s.reportedPosts, (rp: ReportedPost) => rp.postId == postId).Some? then
      Effect(Threw(UniqueViolation), s)
    else
      var row := ReportedPost(userId, postId);
      assert Valid(s) ==> Valid(s.(reportedPosts := s.reportedPosts + [row])) by {
        if Valid(s) {
          AppendKeepsUnique(s.reportedPosts, row, ReportedPostKey);
        }
      }
      Effect(Returned(Answer(true, ReportedMessage)), s.(reportedPosts := s.reportedPosts + [row]))
  }

  /** A post can be reported once: the first report succeeds and a second, by anyone, throws. */
  lemma ReportTwiceThrows(s: Store, postId: Id, first: Id, second: Id)
    requires ReportPost(s, postId, first).out == Returned(Answer(true, ReportedMessage))
    ensures var s1 := ReportPost(s, postId, first).store;
            ReportPost(s1, postId, second) == Effect(Threw(UniqueViolation), s1)
  {
  }

  const LikedMessage := "Post liked successfully!"

  /** `likeAPost`: the like row is inserted with no duplicate check; the INSERT is launched before the
      notification is built, so when the liker or the post is missing, reading `name.first` or
      `authorId` of `undefined` throws after the like row went in. Otherwise one unread notification
      goes to the post's author. */
  function LikeAPost(s: Store, postId: Id, userId: Id, notificationId: Id): (r: Effect<Outcome<Answer>>)
    requires KeyUnused(s.notifications, NotificationKey, notificationId)
    ensures multiset(r.store.postsLikes) == multiset(s.postsLikes) + multiset{Like(postId, userId)}
    ensures r.out.Threw? <==> UserById(s, userId).None? || PostById(s, postId).None?
    ensures r.out.Threw? ==> r.store == s.(postsLikes := r.store.postsLikes)
    ensures r.out.Returned? ==>
              && r.out.value == Answer(true, LikedMessage)
              && r.store == s.(postsLikes := r.store.postsLikes, notifications := r.store.notifications)
              && multiset(r.store.notifications) == multiset(s.notifications) + multiset{
                   Notification(notificationId, PostById(s, postId).value.authorId,
                                UserById(s, userId).value.name.first + " liked your post", false)}
    ensures Valid(s) ==> Valid(r.store)
  {
    var liked := s.(postsLikes := s.postsLikes + [Like(postId, userId)]);
    match (UserById(s, userId), PostById(s, postId))
    case (Some(liker), Some(post)) =>
      var note := Notification(notificationId, post.authorId, liker.name.first + " liked your post", false);
      assert Valid(s) ==> Valid(liked.(notifications := s.notifications + [note])) by {
        if Valid(s) {
          AppendKeepsUnique(s.notifications, note, NotificationKey);
        }
      }
      Effect(Returned(Answer(true, LikedMessage)), liked.(notifications := s.notifications + [note]))
    case _ => Effect(Threw(TypeError), liked)
  }

  /** The number of like rows for a post. */
  function LikeCount(likes: seq<Like>, postId: Id): nat {
    Count(likes, (l: Like) => l.postId == postId)
  }

  /** `viewPost`: a missing post makes the field assignment throw. Otherwise the post is returned
      with `likesNumber` set to the number of its like rows and `likedByUser` set to whether the
      viewer has one. The store is read, not written. */
  function ViewPost(s: Store, postId: Id, userId: Id): (r: Outcome<Post>)
    ensures r.Threw? <==> PostById(s, postId).None?
    ensures r.Returned? ==>
              && r.value.postId == postId
              && r.value.likesNumber == LikeCount(s.postsLikes, postId)
              && (r.value.likedByUser <==> Like(postId, userId) in s.postsLikes)
    // Apart from the two computed columns, the answer is a stored row.
    ensures r.Returned? ==>
              exists p :: p in s.posts && p.postId == postId &&
                r.value == p.(likesNumber := LikeCount(s.postsLikes, postId),
                              likedByUser := Like(postId, userId) in s.postsLikes)
  {
    match PostById(s, postId)
    case None => Threw(TypeError)
    case Some(post) =>
      Returned(post.(likesNumber := LikeCount(s.postsLikes, postId),
                     likedByUser := Like(postId, userId) in s.postsLikes))
  }

  const UnlikedMessage := "Post deleted successfully!"

  /** `unlikeAPost`: deletes every (post, user) like row and nothing else. */
  function UnlikeAPost(s: Store, postId: Id, userId: Id): (r: Effect<Answer>)
    ensures r.out == Answer(true, UnlikedMessage)
    ensures r.store == s.(postsLikes := r.store.postsLikes)
    ensures forall l :: multiset(r.store.postsLikes)[l] ==
              if l == Like(postId, userId) then 0 else multiset(s.postsLikes)[l]
    ensures Valid(s) ==> Valid(r.store)
  {
    Effect(Answer(true, UnlikedMessage),
           s.(postsLikes := Filter(s.postsLikes, (l: Like) => l != Like(postId, userId))))
  }
}

=== FILE: gate.dfy ===
/** The authorization gate of src/auth/index.ts (`checkUserAuthorization`): for a url in its fixed
    route list it verifies the request's token, then may reply 400 for a body-carrying method without
    a JSON content-type, then may reply 401 for a token that failed, with no early return between. */
module Gate {
  import opened Wrappers
  import opened Schema
  import opened Session

  /** The parts of a request the gate reads: `req.url`, `req.method`, the `content-type` header
      (None when absent) and the custom `token` header. */
  datatype Request = Request(url: string, verb: string, contentType: Option<string>, token: string)

  /** `routesThatNeedAuthorizations`, entry for entry. */
  const ProtectedRoutes: set<string> := {
    "/api/v1/users/follow",
    "/api/v1/users/unfollow",
    "/api/v1/users/followees",
    "/api/v1/users/followers",
    "/api/v1/users/search",
    "/api/v1/users/profile/",
    "/api/v1/users/notifications",
    "/api/v1/users/notifications/allRead",
    "/api/v1/users/",
    "/api/v1/v1/post",
    "/api/v1/v1/post/like",
    "/api/v1/v1/post/unlike",
    "/api/v1/v1/post/view",
    "/api/v1/profile/updateName",
    "/api/v1/posts/",
    "/api/v1/comments/",
    "/api/v1/comment",
    "/api/v1/osts/search",
    "/api/v1/posts/report"
  }

  /** `requireBodyMethods` */
  const BodyMethods: set<string> := {"POST", "PUT", "DELETE"}

  const JsonContentType := "application/json"

  /** The condition guarding the 400 reply. */
  predicate BadContentType(req: Request) {
    req.verb in BodyMethods && req.contentType != Some(JsonContentType)
  }

  /** `checkUserAuthorization`: the statuses it tries to send, in order, and the store after the
      token lookup. When it tries two, only the first reaches the client. */
  function CheckUserAuthorization(jwt: Jwt, s: Store, req: Request, now: int): (g: Effect<seq<int>>)
    // Outside the list: no reply and no lookup.
    ensures req.url !in ProtectedRoutes ==> g.out == [] && g.store == s
    // Inside the list: the token is verified whatever the method and content-type.
    ensures req.url in ProtectedRoutes ==> g.store == VerifyToken(jwt, s, req.token, now).store
    ensures 400 in g.out <==> req.url in ProtectedRoutes && BadContentType(req)
    ensures 401 in g.out <==> req.url in ProtectedRoutes && VerifyToken(jwt, s, req.token, now).out.None?
    // Both replies may be attempted for one request, 400 first.
    ensures g.out == [] || g.out == [400] || g.out == [401] || g.out == [400, 401]
  {
    if req.url in ProtectedRoutes then
      var verified := VerifyToken(jwt, s, req.token, now);
      var badRequest := if BadContentType(req) then [400] else [];
      var unauthorized := if verified.out.None? then [401] else [];
      Effect(badRequest + unauthorized, verified.store)
    else
      Effect([], s)
  }

  /** The content-type check never influences the token check or the store: two requests that differ
      only in HTTP method and content-type get the same 401 decision and leave the same store. */
  lemma VerificationIndependentOfContentType(jwt: Jwt, s: Store, a: Request, b: Request, now: int)
    requires a.url == b.url && a.token == b.token
    ensures CheckUserAuthorization(jwt, s, a, now).store == CheckUserAuthorization(jwt, s, b, now).store
    ensures 401 in CheckUserAuthorization(jwt, s, a, now).out <==> 401 in CheckUserAuthorization(jwt, s, b, now).out
  {
  }

  /** A GET request never receives the gate's 400. */
  lemma GetNeverBadRequest(jwt: Jwt, s: Store, req: Request, now: int)
    requires req.verb == "GET"
    ensures 400 !in CheckUserAuthorization(jwt, s, req, now).out
  {
  }

  /** No early return: for a POST without a content-type and with an unlisted token the gate sends
      400 and then tries to send 401 as well; only the 400 reaches the client. */
  lemma BothRepliesToOneRequest(jwt: Jwt, s: Store, token: string, now: int)
    requires token !in s.tokens
    ensures CheckUserAuthorization(jwt, s, Request("/api/v1/users/follow", "POST", None, token), now).out
            == [400, 401]
  {
  }

  /** No listed route contains a '?'. */
  lemma ListedRoutesHaveNoQuery(url: string)
    requires '?' in url
    ensures url !in ProtectedRoutes
  {
  }

  /** Membership is exact string equality: a listed route with any query string appended is not
      listed, so the gate neither replies nor looks at the token. */
  lemma QueryStringBypassesGate(jwt: Jwt, s: Store, route: string, query: string, req: Request, now: int)
    requires route in ProtectedRoutes
    requires req.url == route + "?" + query
    ensures CheckUserAuthorization(jwt, s, req, now) == Effect([], s)
  {
    assert req.url[|route|] == '?';
    ListedRoutesHaveNoQuery(req.url);
  }

  /** The paths the router registers (src/routes/index.ts), in registration order. */
  const RegisteredPaths: seq<string> := [
    "/api/v1/register",
    "/api/v1/login",
    "/api/v1/users/follow",
    "/api/v1/users/unfollow",
    "/api/v1/users/followees",
    "/api/v1/users/followers",
    "/api/v1/users/search",
    "/api/v1/users/profile/",
    "/api/v1/users/notifications",
    "/api/v1/users/notifications/allRead",
    "/api/v1/users/",
    "/api/v1/post",
    "/api/v1/post/like",
    "/api/v1/post/unlike",
    "/api/v1/post/view",
    "/api/v1/post/allFromUser",
    "/api/v1/profile/updateName",
    "/api/v1/posts/",
    "/api/v1/comments/",
    "/api/comment/",
    "/api/v1/posts/search",
    "/api/v1/posts/report"
  ]

  /** Registered paths the gate does not list. Five through typos: the post, like, unlike and view
      routes are listed under `/api/v1/v1/`, post search as `/api/v1/osts/search`. The comment route
      is listed as `/api/v1/comment`. Register, login and allFromUser are not listed at all. */
  const UnlistedPaths: set<string> := {
    "/api/v1/register", "/api/v1/login", "/api/v1/post", "/api/v1/post/like", "/api/v1/post/unlike",
    "/api/v1/post/view", "/api/v1/post/allFromUser", "/api/comment/", "/api/v1/posts/search"
  }

  lemma UnlistedPathsAreRegistered(url: string)
    requires url in UnlistedPaths
    ensures url in RegisteredPaths && url !in ProtectedRoutes
  {
  }

  /** The unlisted paths are exactly the registered paths missing from the gate's list. */
  lemma UnlistedPathsExactly(url: string)
    ensures url in RegisteredPaths && url !in ProtectedRoutes <==> url in UnlistedPaths
  {
    if url in UnlistedPaths {
      UnlistedPathsAreRegistered(url);
    }
  }

  /** The list drifts from the router: a request to a registered but unlisted path passes the gate
      with no reply and no token lookup. */
  lemma RegisteredButUnprotected(jwt: Jwt, s: Store, req: Request, now: int)
    requires req.url in UnlistedPaths
    ensures req.url in RegisteredPaths
    ensures CheckUserAuthorization(jwt, s, req, now) == Effect([], s)
  {
    UnlistedPathsAreRegistered(req.url);
  }
}

=== FILE: password.dfy ===
/** The password helpers of src/utils/password.ts, over bcryptjs. bcryptjs is not part of this model
    beyond `getSalt`, whose behaviour the helper depends on: `compare` and `hash` are uninterpreted. */
module Password {
  import opened Schema

  /** bcryptjs's `compare(plain, hashed)` and `hash(plain, salt)`. */
  datatype Bcrypt = Bcrypt(compare: (string, string) -> bool, hash: (string, string) -> string)

  /** The length of a bcrypt hash, and of the salt prefix `getSalt` takes from one. */
  const HashLength := 60
  const SaltLength := 29

  /** bcryptjs's `getSalt(hash)`: the salt prefix of a bcrypt hash; a string of any other length than
      a hash's throws "Illegal hash length". */
  function GetSalt(hashed: string): (r: Outcome<string>)
    ensures r.Returned? <==> |hashed| == HashLength
    ensures r.Threw? ==> r.failure == IllegalHashLength
    ensures r.Returned? ==> |r.value| == SaltLength && r.value <= hashed
  {
    if |hashed| != HashLength then Threw(IllegalHashLength) else Returned(hashed[..SaltLength])
  }

  /** `encryptPassWord`: it takes its salt from `getSalt('')`, and the empty string is no hash, so
      the promise rejects for every password. */
  function EncryptPassWord(bcrypt: Bcrypt, plain: string): (r: Outcome<string>)
    ensures r == Threw(IllegalHashLength)
  {
    match GetSalt("")
    case Threw(failure) => Threw(failure)
    case Returned(salt) => Returned(bcrypt.hash(plain, salt))
  }

  /** `isSamePassWord`. */
  function IsSamePassWord(bcrypt: Bcrypt, plain: string, hashed: string): bool {
    bcrypt.compare(plain, hashed)
  }
}

=== FILE: profile_services.dfy ===
/** The profile services of src/profile/profile.services.ts: viewing a profile, renaming, and the
    password change. */
module ProfileServices {
  import opened Wrappers
  import opened Tables
  import opened Schema
  import opened Password

  /** The password-change request. */
  datatype PasswordChange = PasswordChange(oldPassWord: string, newPassWord: string, userId: Id)

  const PasswordUpdatedMessage := "Your password was updated Successfully!"
  const PasswordMismatchMessage := "The password you provided does not match with your current password."

  /** The `{ success, code?, message }` object of the password change. */
  datatype PasswordAnswer = PasswordAnswer(success: bool, code: Option<int>, message: string)

  /** `updatePassWord`: the stored password it compares against is that of the user whose id equals
      the NEW password. That lookup compares the uuid column `id` with the uuid the new password
      spells, so a new password that is not uuid input rejects the query; no such user makes `loggedUser.password`
      throw. A mismatch answers code 401. A match reaches `encryptPassWord`, which rejects, so the
      UPDATE of the rows with id `userId` is never run: no call changes a password. */
  function UpdatePassWord(bcrypt: Bcrypt, s: Store, change: PasswordChange): (r: Effect<Outcome<PasswordAnswer>>)
    ensures !IsUuid(change.newPassWord) ==> r == Effect(Threw(InvalidUuidSyntax), s)
    ensures IsUuid(change.newPassWord) && UserById(s, Spelling(change.newPassWord)).None? ==>
              r == Effect(Threw(TypeError), s)
    ensures IsUuid(change.newPassWord) && UserById(s, Spelling(change.newPassWord)).Some? &&
            !IsSamePassWord(bcrypt, change.oldPassWord, UserById(s, Spelling(change.newPassWord)).value.password) ==>
              r == Effect(Returned(PasswordAnswer(false, Some(401), PasswordMismatchMessage)), s)
    ensures IsUuid(change.newPassWord) && UserById(s, Spelling(change.newPassWord)).Some? &&
            IsSamePassWord(bcrypt, change.oldPassWord, UserById(s, Spelling(change.newPassWord)).value.password) ==>
              r == Effect(Threw(IllegalHashLength), s)
    // The success answer is never given and the users table is never written.
    ensures r.out != Returned(PasswordAnswer(true, None, PasswordUpdatedMessage))
    ensures r.store == s
  {
    match SelectUserById(s, change.newPassWord)
    case Threw(failure) => Effect(Threw(failure), s)
    case Returned(None) => Effect(Threw(TypeError), s)
    case Returned(Some(looked)) =>
      if IsSamePassWord(bcrypt, change.oldPassWord, looked.password) then
        match EncryptPassWord(bcrypt, change.newPassWord)
        case Threw(failure) => Effect(Threw(failure), s)
        case Returned(encrypted) =>
          var sel := (u: User) => u.id == change.userId;
          var rehash := (u: User) => u.(password := encrypted);
          Effect(Returned(PasswordAnswer(true, None, PasswordUpdatedMessage)),
                 s.(users := Update(s.users, sel, rehash)))
      else
        Effect(Returned(PasswordAnswer(false, Some(401), PasswordMismatchMessage)), s)
  }

  /** The caller's own stored password plays no part: when no user has the new password as id, the
      change throws even for the right old password. */
  lemma PasswordChangeChecksWrongRow(bcrypt: Bcrypt, s: Store, change: PasswordChange, me: User)
    requires me in s.users && me.id == change.userId
    requires bcrypt.compare(change.oldPassWord, me.password)
    requires forall u :: u in s.users ==> !SameUuid(u.id, change.newPassWord)
    ensures UpdatePassWord(bcrypt, s, change) ==
              Effect(Threw(if IsUuid(change.newPassWord) then TypeError else InvalidUuidSyntax), s)
  {
  }

  /** `updateUserMame`: the lookup's Promise is not awaited and is truthy, so the update always runs
      (changing nothing when no row has the id) and the answer is always a success. Only the `name`
      of the rows with id `userId` changes. */
  function UpdateUserMame(s: Store, userId: Id, newName: Name): (r: Effect<Answer>)
    ensures r.out.success
    ensures r.store == s.(users := r.store.users)
    ensures |r.store.users| == |s.users|
    ensures forall i :: 0 <= i < |s.users| ==>
              r.store.users[i] == if s.users[i].id == userId then s.users[i].(name := newName) else s.users[i]
    ensures Valid(s) ==> Valid(r.store)
  {
    var sel := (u: User) => u.id == userId;
    var rename := (u: User) => u.(name := newName);
    UpdateKeepsUnique(s.users, sel, rename, UserId);
    UpdateKeepsUnique(s.users, sel, rename, UserEmail);
    UpdateKeepsAll(s.users, sel, rename, ColumnsFit);
    Effect(Answer(true, "Your new name is " + newName.first + " " + newName.last),
           s.(users := Update(s.users, sel, rename)))
  }

  /** The `name, birthDate, country, isOnline, topWriter, profileViews, id` columns a profile
      view selects. */
  datatype Profile = Profile(
    name: Name,
    birthDate: BirthDate,
    country: string,
    isOnline: bool,
    topWriter: bool,
    profileViews: int,
    id: Id)

  function ProfileOf(u: User): Profile {
    Profile(u.name, u.birthDate, u.country, u.isOnline, u.topWriter, u.profileViews, u.id)
  }

  /** `viewProfile`. With `profileViews = targetUser.profileViews++` the local receives the old value
      and the returned object the incremented one, so the store is written back with the old count.
      A missing target (`.profileViews` of `undefined`) or viewer (`.name` of `undefined`) throws
      before any write; `viewerId` None is the absent query parameter. Otherwise one notification
      for the target, with the column default `read = false`, is inserted. */
  function ViewProfile(s: Store, targetUserId: Id, viewerId: Option<Id>, notificationId: Id)
    : (r: Effect<Outcome<Profile>>)
    requires KeyUnused(s.notifications, NotificationKey, notificationId)
    ensures r.out.Threw? <==>
              UserById(s, targetUserId).None? || viewerId.None? || UserById(s, viewerId.value).None?
    ensures r.out.Threw? ==> r.store == s
    ensures r.out.Returned? ==>
              && var target := UserById(s, targetUserId).value;
              && r.out.value == ProfileOf(target).(profileViews := target.profileViews + 1)
              && r.store == s.(users := r.store.users, notifications := r.store.notifications)
              && multiset(r.store.notifications) == multiset(s.notifications) + multiset{
                   Notification(notificationId, targetUserId,
                                UserById(s, viewerId.value).value.name.first + " visited your profile.", false)}
    // The view counter is written back unchanged.
    ensures Valid(s) ==> r.store.users == s.users
    ensures Valid(s) ==> Valid(r.store)
  {
    var viewer := if viewerId.Some? then UserById(s, viewerId.value) else None;
    match (UserById(s, targetUserId), viewer)
    case (Some(target), Some(v)) =>
      var profileViews := target.profileViews;
      var note := Notification(notificationId, targetUserId, v.name.first + " visited your profile.", false);
      var users := SetProfileViews(s.users, targetUserId, profileViews);
      ViewWriteKeepsValid(s, target, note);
      Effect(Returned(ProfileOf(target).(profileViews := profileViews + 1)),
             s.(users := users, notifications := s.notifications + [note]))
    case _ => Effect(Threw(TypeError), s)
  }

  /** The UPDATE of `viewProfile`: `profileViews` of every row with the id `id` becomes `views`. */
  function SetProfileViews(users: seq<User>, id: Id, views: int): (r: seq<User>)
    ensures |r| == |users|
    ensures forall i :: 0 <= i < |users| ==>
              r[i] == if users[i].id == id then users[i].(profileViews := views) else users[i]
  {
    Update(users, (u: User) => u.id == id, (u: User) => u.(profileViews := views))
  }

  /** Under unique ids, writing a user's own view count back to the rows with its id changes
      nothing. */
  lemma WriteBackUnchanged(users: seq<User>, target: User)
    requires UniqueKeys(users, UserId) && target in users
    ensures SetProfileViews(users, target.id, target.profileViews) == users
  {
    var r := SetProfileViews(users, target.id, target.profileViews);
    forall i | 0 <= i < |users| && users[i].id == target.id
      ensures r[i] == users[i]
    {
      UniqueLookup(users, UserId, users[i], target);
    }
  }

  /** The writes of a profile view: the user rows come back unchanged and the new notification
      keeps the constraints. */
  lemma ViewWriteKeepsValid(s: Store, target: User, note: Notification)
    requires target in s.users
    requires KeyUnused(s.notifications, NotificationKey, note.notificationId)
    ensures Valid(s) ==> SetProfileViews(s.users, target.id, target.profileViews) == s.users
    ensures Valid(s) ==>
              Valid(s.(users := SetProfileViews(s.users, target.id, target.profileViews),
                       notifications := s.notifications + [note]))
  {
    if Valid(s) {
      WriteBackUnchanged(s.users, target);
      NotifyKeepsValid(s, note);
    }
  }

  /** `userViewOwnProfile`: reads the profile and answers `success: false`; nothing is written. */
  function UserViewOwnProfile(s: Store, userId: Id): (r: (bool, Option<Profile>))
    ensures !r.0
    ensures r.1.Some? <==> exists u :: u in s.users && u.id == userId
    ensures r.1.Some? ==> exists u :: u in s.users && u.id == userId && r.1.value == ProfileOf(u)
  {
    (false, match UserById(s, userId) case Some(u) => Some(ProfileOf(u)) case None => None)
  }
}

=== FILE: schema.dfy ===
/** The eight tables of the relational store, with the row shapes of src/config/schemas.ts and the
    constraints and defaults declared by the migrations. */
module Schema {
  import opened Wrappers
  import opened Tables

  /** A uuid column value, or an id string supplied by a request. */
  type Id = string

  datatype Name = Name(first: string, last: string)

  datatype BirthDate = BirthDate(day: int, month: int, year: int)

  datatype User = User(
    id: Id,
    email: string,
    name: Name,
    birthDate: BirthDate,
    password: string,
    gender: string,
    country: string,
    topWriter: bool,
    isOnline: bool,
    profileViews: int)

  /** A follow edge; the table has no uniqueness, so an edge may occur several times. */
  datatype Follow = Follow(followerId: Id, followeeId: Id)

  datatype Content = Content(title: string, text: string, attachments: seq<string>)

  datatype Post = Post(
    postId: Id,
    authorId: Id,
    content: Content,
    likesNumber: int,
    commentsNumber: int,
    likedByUser: bool)

  datatype Comment = Comment(commentId: Id, authorId: Id, postId: Id, text: string)

  datatype ReportedPost = ReportedPost(reporterId: Id, postId: Id)

  datatype Notification = Notification(notificationId: Id, userId: Id, text: string, read: bool)

  /** A like edge; the table has no uniqueness, so a user may like a post several times. */
  datatype Like = Like(postId: Id, likerId: Id)

  datatype Store = Store(
    users: seq<User>,
    follows: seq<Follow>,
    posts: seq<Post>,
    comments: seq<Comment>,
    notifications: seq<Notification>,
    reportedPosts: seq<ReportedPost>,
    postsLikes: seq<Like>,
    tokens: seq<string>)

  const EmptyStore := Store([], [], [], [], [], [], [], [])

  /** How a service call ends when its promise is rejected: reading a field of `undefined`
      (a lookup that found no row), an INSERT that breaks a UNIQUE constraint, a query comparing a
      uuid column with a string that is not uuid input, a value too long for its `varchar` column,
      or bcryptjs refusing a salt source that is not a 60-character hash. */
  datatype Failure = TypeError | UniqueViolation | InvalidUuidSyntax | ValueTooLong | IllegalHashLength

  datatype Outcome<T> = Returned(value: T) | Threw(failure: Failure)

  /** A service's reply together with the store it leaves behind. */
  datatype Effect<T> = Effect(out: T, store: Store)

  /** The `{ success, message }` object most services resolve to. */
  datatype Answer = Answer(success: bool, message: string)

  // Column accessors, used as keys of the UNIQUE and PRIMARY KEY constraints.
  function UserId(u: User): Id { u.id }
  function UserEmail(u: User): string { u.email }
  function PostKey(p: Post): Id { p.postId }
  function CommentKey(c: Comment): Id { c.commentId }
  function NotificationKey(n: Notification): Id { n.notificationId }
  function ReportedPostKey(r: ReportedPost): Id { r.postId }
  function TokenKey(t: string): string { t }

  // The widths of the `varchar` columns.
  const EmailWidth := 255
  const PasswordWidth := 255
  const CountryWidth := 20
  const GenderWidth := 6
  const TokenWidth := 200

  /** A `varchar(width)` column accepts `text`: it is short enough, or everything past the width is
      spaces. */
  predicate Fits(width: nat, text: string) {
    |text| <= width || forall i :: width <= i < |text| ==> text[i] == ' '
  }

  /** What a `varchar(width)` column stores for `text`: PostgreSQL rejects a longer value unless the
      excess characters are all spaces, which it then cuts off. */
  function Varchar(width: nat, text: string): (r: Outcome<string>)
    ensures r.Returned? <==> Fits(width, text)
    ensures r.Threw? ==> r.failure == ValueTooLong
    ensures |text| <= width ==> r == Returned(text)
    ensures r.Returned? ==>
              && |r.value| <= width && r.value <= text
              && forall i :: |r.value| <= i < |text| ==> text[i] == ' '
  {
    if |text| <= width then Returned(text)
    else if Fits(width, text) then Returned(text[..width])
    else Threw(ValueTooLong)
  }

  /** The `varchar` columns of a user row are within their widths. */
  predicate ColumnsFit(u: User) {
    |u.email| <= EmailWidth && |u.password| <= PasswordWidth && |u.country| <= CountryWidth &&
    |u.gender| <= GenderWidth
  }

  /** The constraints the migrations declare: primary keys on users.id, posts.postId,
      comments.commentId and notifications.NotificationId, UNIQUE on users.email,
      reportedPosts.postId and tokens.token, and the widths of the `varchar` columns; the generated
      user and post ids are uuids, held in the spelling PostgreSQL stores. */
  ghost predicate Valid(s: Store) {
    && UniqueKeys(s.users, UserId)
    && UniqueKeys(s.users, UserEmail)
    && UniqueKeys(s.posts, PostKey)
    && UniqueKeys(s.comments, CommentKey)
    && UniqueKeys(s.notifications, NotificationKey)
    && UniqueKeys(s.reportedPosts, ReportedPostKey)
    && UniqueKeys(s.tokens, TokenKey)
    && UuidUserIds(s.users)
    && UuidPostIds(s.posts)
    && UsersFit(s.users)
    && TokensFit(s.tokens)
  }

  ghost predicate UuidUserIds(users: seq<User>) {
    forall u :: u in users ==> Canonical(u.id)
  }

  ghost predicate UuidPostIds(posts: seq<Post>) {
    forall p :: p in posts ==> Canonical(p.postId)
  }

  ghost predicate UsersFit(users: seq<User>) {
    forall u :: u in users ==> ColumnsFit(u)
  }

  ghost predicate TokensFit(tokens: seq<string>) {
    forall t :: t in tokens ==> |t| <= TokenWidth
  }

  /** Adding a notification with an unused id keeps the constraints. */
  lemma NotifyKeepsValid(s: Store, note: Notification)
    requires Valid(s)
    requires KeyUnused(s.notifications, NotificationKey, note.notificationId)
    ensures Valid(s.(notifications := s.notifications + [note]))
  {
    AppendKeepsUnique(s.notifications, note, NotificationKey);
  }

  /** What `gen_random_uuid()` is assumed to deliver for a user or post id: a uuid, in the spelling
      PostgreSQL stores, unused in its table. A generated notification id is only required to be
      unused (`KeyUnused`), since nothing here depends on its spelling. */
  ghost predicate Fresh<T>(id: Id, xs: seq<T>, key: T -> Id) {
    Canonical(id) && KeyUnused(xs, key, id)
  }

  /** `selectFrom('users').where('id', '=', id).executeTakeFirst()` */
  function UserById(s: Store, id: Id): (r: Option<User>)
    ensures r.Some? ==> r.value in s.users && r.value.id == id
    ensures r.None? <==> forall u :: u in s.users ==> u.id != id
  {
    First(s.users, (u: User) => u.id == id)
  }

  /** `selectFrom('users').where('email', '=', email).executeTakeFirst()` */
  function UserByEmail(s: Store, email: string): (r: Option<User>)
    ensures r.Some? ==> r.value in s.users && r.value.email == email
    ensures r.None? <==> forall u :: u in s.users ==> u.email != email
  {
    First(s.users, (u: User) => u.email == email)
  }

  /** `selectFrom('posts').where('postId', '=', id).executeTakeFirst()` */
  function PostById(s: Store, id: Id): (r: Option<Post>)
    ensures r.Some? ==> r.value in s.posts && r.value.postId == id
    ensures r.None? <==> forall p :: p in s.posts ==> p.postId != id
  {
    First(s.posts, (p: Post) => p.postId == id)
  }

  /** A hexadecimal digit, either case. */
  predicate IsHexDigit(c: char) {
    '0' <= c <= '9' || 'a' <= c <= 'f' || 'A' <= c <= 'F'
  }

  /** A hexadecimal digit as PostgreSQL prints it, in lower case. */
  predicate IsLowerHexDigit(c: char) {
    '0' <= c <= '9' || 'a' <= c <= 'f'
  }

  /** The value of a hexadecimal digit; both cases give the same value. */
  function HexValue(c: char): (v: nat)
    requires IsHexDigit(c)
    ensures v < 16
  {
    if '0' <= c <= '9' then c as int - '0' as int
    else if 'a' <= c <= 'f' then c as int - 'a' as int + 10
    else c as int - 'A' as int + 10
  }

  /** The digit PostgreSQL prints for a value below 16. */
  function HexDigit(v: nat): (c: char)
    requires v < 16
    ensures IsLowerHexDigit(c) && HexValue(c) == v
  {
    if v < 10 then ('0' as int + v) as char else ('a' as int + v - 10) as char
  }

  /** The text inside one pair of enclosing braces, or the whole text when there are none. */
  function Unbraced(text: string): string {
    if |text| >= 2 && text[0] == '{' && text[|text| - 1] == '}' then text[1..|text| - 1] else text
  }

  /** PostgreSQL's input syntax for `uuid`: 32 hexadecimal digits, read two per byte, where a hyphen
      may follow any odd-numbered byte but the last, optionally all inside one pair of braces. */
  predicate IsUuid(text: string) {
    UuidBytes(Unbraced(text), 0)
  }

  /** `text` holds the bytes `done`..15 of a uuid and nothing after them. */
  predicate UuidBytes(text: string, done: nat)
    requires done <= 16
    decreases 16 - done
  {
    if done == 16 then text == []
    else
      && |text| >= 2 && IsHexDigit(text[0]) && IsHexDigit(text[1])
      && var rest := text[2..];
         if done % 2 == 1 && done < 15 && rest != [] && rest[0] == '-' then UuidBytes(rest[1..], done + 1)
         else UuidBytes(rest, done + 1)
  }

  /** The digit values, two per byte, of the bytes `done`..15 that `text` holds. */
  function Nibbles(text: string, done: nat): (r: seq<nat>)
    requires done <= 16 && UuidBytes(text, done)
    ensures |r| == 2 * (16 - done)
    ensures forall k :: 0 <= k < |r| ==> r[k] < 16
    decreases 16 - done
  {
    if done == 16 then []
    else
      var rest := text[2..];
      [HexValue(text[0]), HexValue(text[1])] +
        if done % 2 == 1 && done < 15 && rest != [] && rest[0] == '-' then Nibbles(rest[1..], done + 1)
        else Nibbles(rest, done + 1)
  }

  /** Whether the 8-4-4-4-12 spelling puts a hyphen after byte `done` (counting from 0). */
  predicate HyphenAfter(done: nat) {
    done == 3 || done == 5 || done == 7 || done == 9
  }

  /** `text` holds the bytes `done`..15 of the spelling PostgreSQL prints, and stores, for a uuid:
      lower-case digits, with the hyphens of the 8-4-4-4-12 grouping and no others. */
  predicate CanonicalBytes(text: string, done: nat)
    requires done <= 16
    decreases 16 - done
  {
    if done == 16 then text == []
    else
      && |text| >= 2 && IsLowerHexDigit(text[0]) && IsLowerHexDigit(text[1])
      && var rest := text[2..];
         if HyphenAfter(done) then rest != [] && rest[0] == '-' && CanonicalBytes(rest[1..], done + 1)
         else CanonicalBytes(rest, done + 1)
  }

  /** The canonical spelling of a uuid, such as `gen_random_uuid()` returns. */
  predicate Canonical(text: string) {
    CanonicalBytes(text, 0)
  }

  /** The canonical spelling of the digit values of bytes `done`..15. */
  function Format(digits: seq<nat>, done: nat): (r: string)
    requires done <= 16 && |digits| == 2 * (16 - done)
    requires forall k :: 0 <= k < |digits| ==> digits[k] < 16
    ensures CanonicalBytes(r, done)
    decreases 16 - done
  {
    if done == 16 then []
    else
      var tail := Format(digits[2..], done + 1);
      var r := [HexDigit(digits[0]), HexDigit(digits[1])] + (if HyphenAfter(done) then "-" + tail else tail);
      assert r[2..] == if HyphenAfter(done) then "-" + tail else tail;
      assert HyphenAfter(done) ==> r[2..][1..] == tail;
      r
  }

  /** The value uuid input denotes, written as PostgreSQL stores and prints it: two spellings
      denote the same uuid iff their canonical spellings agree. */
  function Spelling(text: string): (r: string)
    requires IsUuid(text)
    ensures Canonical(r)
  {
    Format(Nibbles(Unbraced(text), 0), 0)
  }

  /** A uuid column holding `id` equals the uuid that `text` spells. */
  predicate SameUuid(id: Id, text: string) {
    IsUuid(text) && id == Spelling(text)
  }

  lemma LowerDigitRoundTrip(c: char)
    requires IsLowerHexDigit(c)
    ensures HexDigit(HexValue(c)) == c
  {
  }

  /** Bytes `done`..15 of the canonical spelling are uuid input. */
  lemma {:induction false} CanonicalIsUuidFrom(text: string, done: nat)
    requires done <= 16 && CanonicalBytes(text, done)
    ensures UuidBytes(text, done)
    decreases 16 - done
  {
    if done < 16 {
      var rest := text[2..];
      var next := if HyphenAfter(done) then rest[1..] else rest;
      CanonicalIsUuidFrom(next, done + 1);
      assert HyphenAfter(done) <==> (done % 2 == 1 && done < 15 && rest != [] && rest[0] == '-') by {
        if !HyphenAfter(done) && done % 2 == 1 && done < 15 {
          assert IsLowerHexDigit(rest[0]);
        }
      }
    }
  }

  /** The canonical spelling of bytes `done`..15 continues after its first byte with a hyphen or
      not, then the rest. */
  lemma CanonicalStep(text: string, done: nat) returns (next: string)
    requires done < 16 && CanonicalBytes(text, done)
    ensures CanonicalBytes(next, done + 1) && UuidBytes(text, done) && UuidBytes(next, done + 1)
    ensures text == [text[0], text[1]] + (if HyphenAfter(done) then "-" + next else next)
    ensures Nibbles(text, done) == [HexValue(text[0]), HexValue(text[1])] + Nibbles(next, done + 1)
  {
    var rest := text[2..];
    next := if HyphenAfter(done) then rest[1..] else rest;
    CanonicalIsUuidFrom(text, done);
    CanonicalIsUuidFrom(next, done + 1);
    if !HyphenAfter(done) && done % 2 == 1 && done < 15 {
      assert IsLowerHexDigit(rest[0]);
    }
  }

  /** Reading bytes `done`..15 of the canonical spelling and printing them gives them back. */
  lemma {:induction false} CanonicalFrom(text: string, done: nat)
    requires done <= 16 && CanonicalBytes(text, done)
    ensures UuidBytes(text, done) && Format(Nibbles(text, done), done) == text
    decreases 16 - done
  {
    CanonicalIsUuidFrom(text, done);
    if done < 16 {
      var next := CanonicalStep(text, done);
      CanonicalFrom(next, done + 1);
      var n := Nibbles(text, done);
      assert n[2..] == Nibbles(next, done + 1);
      LowerDigitRoundTrip(text[0]);
      LowerDigitRoundTrip(text[1]);
    }
  }

  /** The canonical spelling is uuid input and spells itself. */
  lemma CanonicalSpelling(text: string)
    requires Canonical(text)
    ensures IsUuid(text) && Spelling(text) == text
  {
    assert Unbraced(text) == text;
    CanonicalFrom(text, 0);
  }

  /** The character PostgreSQL reads as the same digit in the other case. */
  function UpperChar(c: char): char {
    if 'a' <= c <= 'f' then (c as int - 32) as char else c
  }

  /** A text with its lower-case hexadecimal letters in upper case. */
  function UpperCase(text: string): (r: string)
    ensures |r| == |text| && forall i :: 0 <= i < |text| ==> r[i] == UpperChar(text[i])
  {
    seq(|text|, i requires 0 <= i < |text| => UpperChar(text[i]))
  }

  /** PostgreSQL reads hexadecimal digits in either case: upper-casing uuid input gives uuid input
      with the same digit values. */
  lemma {:induction false} UpperCaseBytes(text: string, done: nat)
    requires done <= 16 && UuidBytes(text, done)
    ensures UuidBytes(UpperCase(text), done)
    ensures Nibbles(UpperCase(text), done) == Nibbles(text, done)
    decreases 16 - done
  {
    if done < 16 {
      var rest := text[2..];
      var upper := UpperCase(text);
      assert upper[2..] == UpperCase(rest);
      assert HexValue(upper[0]) == HexValue(text[0]) && HexValue(upper[1]) == HexValue(text[1]);
      if done % 2 == 1 && done < 15 && rest != [] && rest[0] == '-' {
        assert UpperCase(rest)[1..] == UpperCase(rest[1..]);
        UpperCaseBytes(rest[1..], done + 1);
      } else {
        UpperCaseBytes(rest, done + 1);
      }
    }
  }

  /** The upper-case spelling of a stored uuid denotes that uuid. */
  lemma UpperCaseSameUuid(id: Id)
    requires Canonical(id)
    ensures SameUuid(id, UpperCase(id))
  {
    CanonicalSpelling(id);
    var upper := UpperCase(id);
    assert upper[0] == UpperChar(id[0]) && IsLowerHexDigit(id[0]);
    assert Unbraced(upper) == upper;
    assert Unbraced(id) == id;
    UpperCaseBytes(id, 0);
    assert Spelling(upper) == Format(Nibbles(id, 0), 0);
  }

  /** The SELECT on the uuid column `posts.postId`: input that is not uuid syntax makes PostgreSQL
      reject the query; otherwise the column is compared with the uuid the text spells. */
  function SelectPostById(s: Store, text: string): (r: Outcome<Option<Post>>)
    ensures r.Threw? <==> !IsUuid(text)
    ensures r.Threw? ==> r.failure == InvalidUuidSyntax
    ensures r.Returned? ==> (r.value.Some? <==> exists p :: p in s.posts && SameUuid(p.postId, text))
    ensures r.Returned? && r.value.Some? ==> r.value.value in s.posts && SameUuid(r.value.value.postId, text)
  {
    if IsUuid(text) then Returned(PostById(s, Spelling(text))) else Threw(InvalidUuidSyntax)
  }

  /** The SELECT on the uuid column `users.id`, likewise. */
  function SelectUserById(s: Store, text: string): (r: Outcome<Option<User>>)
    ensures r.Threw? <==> !IsUuid(text)
    ensures r.Threw? ==> r.failure == InvalidUuidSyntax
    ensures r.Returned? ==> (r.value.Some? <==> exists u :: u in s.users && SameUuid(u.id, text))
    ensures r.Returned? && r.value.Some? ==> r.value.value in s.users && SameUuid(r.value.value.id, text)
  {
    if IsUuid(text) then Returned(UserById(s, Spelling(text))) else Threw(InvalidUuidSyntax)
  }

  /** Asking for a stored user by the upper-case spelling of its id finds that user. */
  lemma UpperCaseIdFindsUser(s: Store, u: User)
    requires Valid(s) && u in s.users
    ensures SelectUserById(s, UpperCase(u.id)) == Returned(Some(u))
  {
    UpperCaseSameUuid(u.id);
    var found := UserById(s, u.id);
    UniqueLookup(s.users, UserId, found.value, u);
  }

  /** Under a unique key, the row a lookup finds is the only row with that key. */
  lemma UniqueLookup<T>(xs: seq<T>, key: T -> Id, x: T, y: T)
    requires UniqueKeys(xs, key)
    requires x in xs && y in xs && key(x) == key(y)
    ensures x == y
  {
  }
}

=== FILE: session.dfy ===
/** The session allow-list of src/utils/token.ts: issuing, decoding and verifying bearer tokens
    against the `tokens` table, with one-shot revocation of a listed token that fails verification. */
module Session {
  import opened Wrappers
  import opened Tables
  import opened Schema

  /** The object the login flow signs. */
  datatype Payload = Payload(name: Name, userId: Id, email: string)

  /** A token's claims: the signed payload and the `exp` second jsonwebtoken adds. */
  datatype Claims = Claims(payload: Payload, exp: int)

  /** jsonwebtoken with the server secret bound in. `verify(t, now)` checks signature and expiry at
      second `now` and yields the claims; `decode(t)` reads the claims without any check. The library
      is not part of this model: these are uninterpreted, constrained only by `Sound`. */
  datatype Jwt = Jwt(
    sign: Claims -> string,
    verify: (string, int) -> Option<Claims>,
    decode: string -> Option<Claims>)

  /** What jsonwebtoken promises: a signed token decodes to its claims and verifies exactly while
      `now < exp`; whatever verifies also decodes to the same claims. */
  ghost predicate Sound(jwt: Jwt) {
    && (forall c :: jwt.decode(jwt.sign(c)) == Some(c))
    && (forall c, now :: jwt.verify(jwt.sign(c), now) == if now < c.exp then Some(c) else None)
    && (forall t, now :: jwt.verify(t, now).Some? ==> jwt.decode(t) == jwt.verify(t, now))
  }

  /** `expiresIn: '30m'`, in seconds. */
  const ExpiresIn := 30 * 60

  /** `verifyToken`: a token verifies only when its row is in the allow-list (and the row value is
      truthy, i.e. non-empty) and jsonwebtoken accepts it. A listed token that jsonwebtoken rejects
      has its row deleted. The result None stands for the source's `false`. */
  function VerifyToken(jwt: Jwt, s: Store, token: string, now: int): (r: Effect<Option<Claims>>)
    // An unlisted (or empty) token fails and nothing is written.
    ensures token !in s.tokens || token == "" ==> r.out == None && r.store == s
    // A listed token that verifies yields its claims and nothing is written.
    ensures token in s.tokens && token != "" && jwt.verify(token, now).Some? ==>
              r.out == jwt.verify(token, now) && r.store == s
    // A listed token that fails loses exactly its own row.
    ensures token in s.tokens && token != "" && jwt.verify(token, now).None? ==>
              && r.out == None
              && r.store == s.(tokens := r.store.tokens)
              && (forall t :: t in r.store.tokens <==> t in s.tokens && t != token)
              && (forall t :: t != token ==> multiset(r.store.tokens)[t] == multiset(s.tokens)[t])
    // Verification never adds a row.
    ensures forall t :: t in r.store.tokens ==> t in s.tokens
    ensures Valid(s) ==> Valid(r.store)
  {
    if token in s.tokens && token != "" then
      match jwt.verify(token, now)
      case Some(c) => Effect(Some(c), s)
      case None =>
        var kept := Filter(s.tokens, (t: string) => t != token);
        FilterKeepsUnique(s.tokens, (t: string) => t != token, TokenKey);
        Effect(None, s.(tokens := kept))
    else Effect(None, s)
  }

  /** `createToken`: signs the payload with a 30-minute expiry. It takes no store: issuing a token
      writes nothing to the allow-list. */
  function CreateToken(jwt: Jwt, payload: Payload, now: int): (token: string)
    ensures Sound(jwt) ==> jwt.decode(token) == Some(Claims(payload, now + ExpiresIn))
    ensures Sound(jwt) ==> forall t :: jwt.verify(token, t).Some? <==> t < now + 30 * 60
  {
    jwt.sign(Claims(payload, now + ExpiresIn))
  }

  /** `decodeToken`: reads the claims of a token. It takes no store and no clock, so neither the
      allow-list nor the signature nor the expiry can influence it. */
  function DecodeToken(jwt: Jwt, token: string): (r: Option<Claims>)
    ensures Sound(jwt) ==> forall now :: jwt.verify(token, now).Some? ==> r == jwt.verify(token, now)
  {
    jwt.decode(token)
  }

  /** Once verification has revoked a token, verifying it again fails and leaves the store alone. */
  lemma RevokedTokenFailsAgain(jwt: Jwt, s: Store, token: string, now: int, later: int)
    requires token in s.tokens && jwt.verify(token, now).None?
    ensures var s' := VerifyToken(jwt, s, token, now).store;
            VerifyToken(jwt, s', token, later) == Effect(None, s')
  {
  }

  /** A token that was never put in the allow-list fails verification, even a well-formed,
      unexpired one issued a moment ago. */
  lemma IssuedButUnlistedTokenFails(jwt: Jwt, s: Store, payload: Payload, now: int, at: int)
    requires Sound(jwt)
    requires CreateToken(jwt, payload, now) !in s.tokens
    requires at < now + ExpiresIn
    ensures jwt.verify(CreateToken(jwt, payload, now), at).Some?
    ensures VerifyToken(jwt, s, CreateToken(jwt, payload, now), at) == Effect(None, s)
  {
  }

  /** Decoding trusts what verification refuses: an expired token still decodes to its claims,
      while verifying it fails (and revokes it when it is listed). */
  lemma DecodeIgnoresExpiry(jwt: Jwt, s: Store, payload: Payload, issued: int, at: int)
    requires Sound(jwt)
    requires at >= issued + ExpiresIn
    ensures DecodeToken(jwt, CreateToken(jwt, payload, issued)) == Some(Claims(payload, issued + ExpiresIn))
    ensures VerifyToken(jwt, s, CreateToken(jwt, payload, issued), at).out == None
  {
  }
}

=== FILE: system.dfy ===
/** The whole server as a state machine over the store: every writing request of the model, replayed
    in sequence. Its point is the allow-list: no request ever adds a row to `tokens`, so a revoked
    token stays revoked and, starting from an empty allow-list, no token ever verifies. */
module System {
  import opened Wrappers
  import opened Tables
  import opened Schema
  import opened Session
  import Gate
  import UserServices
  import UserProviders
  import FeedServices
  import ProfileServices
  import Password

  /** The foreign libraries the server is linked with. */
  datatype Env = Env(validator: UserProviders.Validator, jwt: Jwt, bcrypt: Password.Bcrypt)

  /** One request, with the clock reading and the generated ids it consumes. */
  datatype Call =
    | Authorize(req: Gate.Request, now: int)
    | SignUp(body: UserProviders.RegisterBody, newId: Id)
    | SignIn(email: string, password: string, now: int)
    | StartFollowing(token: string, followeeId: Id, followerId: Id, notificationId: Id)
    | StopFollowing(token: string, followeeId: Id, followerId: Id)
    | DeleteAccount(token: string, userId: Id)
    | Publish(authorId: Id, content: Content, newId: Id)
    | CommentOn(comment: FeedServices.NewComment, newId: Id)
    | DeletePost(postId: Id, userId: Id)
    | ReadAllNotifications(userId: Id)
    | Report(postId: Id, userId: Id)
    | LikePost(postId: Id, userId: Id, notificationId: Id)
    | UnlikePost(postId: Id, userId: Id)
    | VisitProfile(targetUserId: Id, viewerId: Option<Id>, notificationId: Id)
    | Rename(userId: Id, newName: Name)
    | ChangePassword(change: ProfileServices.PasswordChange)

  /** The generated ids a call consumes are fresh in the table they key. */
  ghost predicate Admissible(s: Store, call: Call) {
    match call
    case SignUp(_, newId) => Fresh(newId, s.users, UserId)
    case StartFollowing(_, _, _, nid) => KeyUnused(s.notifications, NotificationKey, nid)
    case Publish(_, _, newId) => Fresh(newId, s.posts, PostKey)
    case LikePost(_, _, nid) => KeyUnused(s.notifications, NotificationKey, nid)
    case VisitProfile(_, _, nid) => KeyUnused(s.notifications, NotificationKey, nid)
    case _ => true
  }

  /** The store after one request (a request that throws leaves whatever it wrote before). */
  function Step(env: Env, s: Store, call: Call): (r: Store)
    requires Admissible(s, call)
    // No request adds a token to the allow-list.
    ensures forall t :: t in r.tokens ==> t in s.tokens
    // Only the gate, through verification, touches the allow-list.
    ensures !call.Authorize? ==> r.tokens == s.tokens
    ensures Valid(s) ==> Valid(r)
  {
    if IsUserCall(call) then UserStep(env, s, call) else ContentStep(env, s, call)
  }

  /** The requests of the gate and of src/user/user.providers.ts. */
  predicate IsUserCall(call: Call) {
    call.Authorize? || call.SignUp? || call.SignIn? || call.StartFollowing? || call.StopFollowing? ||
    call.DeleteAccount?
  }

  function UserStep(env: Env, s: Store, call: Call): (r: Store)
    requires Admissible(s, call) && IsUserCall(call)
    ensures forall t :: t in r.tokens ==> t in s.tokens
    ensures !call.Authorize? ==> r.tokens == s.tokens
    ensures Valid(s) ==> Valid(r)
  {
    match call
    case Authorize(req, now) => Gate.CheckUserAuthorization(env.jwt, s, req, now).store
    case SignUp(body, newId) => UserProviders.Register(env.validator, s, body, newId).store
    case SignIn(_, _, _) => s
    case StartFollowing(token, followeeId, followerId, nid) =>
      UserProviders.FollowUser(env.validator, env.jwt, s, token, followeeId, followerId, nid).store
    case StopFollowing(token, followeeId, followerId) =>
      UserProviders.UnFollowUser(env.validator, env.jwt, s, token, followeeId, followerId).store
    case DeleteAccount(token, userId) =>
      UserProviders.DeleteUsersFromSystem(env.validator, env.jwt, s, token, userId).store
  }

  /** The requests of the feed and profile services. */
  function ContentStep(env: Env, s: Store, call: Call): (r: Store)
    requires Admissible(s, call) && !IsUserCall(call)
    ensures r.tokens == s.tokens
    ensures Valid(s) ==> Valid(r)
  {
    match call
    case Publish(authorId, content, newId) => FeedServices.PostStory(s, authorId, content, newId).store
    case CommentOn(comment, newId) => FeedServices.PostComment(s, comment, newId).store
    case DeletePost(postId, userId) => FeedServices.UserDeletePost(s, postId, userId).store
    case ReadAllNotifications(userId) => FeedServices.SetAllNotificationsRead(s, userId).store
    case Report(postId, userId) => FeedServices.ReportPost(s, postId, userId).store
    case LikePost(postId, userId, nid) => FeedServices.LikeAPost(s, postId, userId, nid).store
    case UnlikePost(postId, userId) => FeedServices.UnlikeAPost(s, postId, userId).store
    case VisitProfile(target, viewer, nid) => ProfileServices.ViewProfile(s, target, viewer, nid).store
    case Rename(userId, newName) => ProfileServices.UpdateUserMame(s, userId, newName).store
    case ChangePassword(change) => ProfileServices.UpdatePassWord(env.bcrypt, s, change).store
  }

  /** Every call of the sequence is admissible in the store its predecessors leave. */
  ghost predicate AdmissibleRun(env: Env, s: Store, calls: seq<Call>)
    decreases |calls|
  {
    calls == [] || (Admissible(s, calls[0]) && AdmissibleRun(env, Step(env, s, calls[0]), calls[1..]))
  }

  /** The store after the requests, one after another. */
  function Replay(env: Env, s: Store, calls: seq<Call>): (r: Store)
    requires AdmissibleRun(env, s, calls)
    ensures forall t :: t in r.tokens ==> t in s.tokens
    ensures Valid(s) ==> Valid(r)
    decreases |calls|
  {
    if calls == [] then s else Replay(env, Step(env, s, calls[0]), calls[1..])
  }

  /** A token the gate has revoked is refused by every later verification, whatever requests come
      in between. */
  lemma RevokedStaysRevoked(env: Env, s: Store, token: string, now: int, calls: seq<Call>, later: int)
    requires token in s.tokens && token != "" && env.jwt.verify(token, now).None?
    requires AdmissibleRun(env, VerifyToken(env.jwt, s, token, now).store, calls)
    ensures var s' := Replay(env, VerifyToken(env.jwt, s, token, now).store, calls);
            VerifyToken(env.jwt, s', token, later) == Effect(None, s')
  {
  }

  /** From an empty allow-list, no sequence of requests makes any token verify: the token a login
      hands out is refused, and every request to a listed route is answered 401. */
  lemma NothingEverVerifies(env: Env, s: Store, calls: seq<Call>, req: Gate.Request, now: int)
    requires s.tokens == []
    requires AdmissibleRun(env, s, calls)
    requires req.url in Gate.ProtectedRoutes
    ensures var s' := Replay(env, s, calls);
            && VerifyToken(env.jwt, s', req.token, now) == Effect(None, s')
            && 401 in Gate.CheckUserAuthorization(env.jwt, s', req, now).out
  {
  }

  /** The empty store satisfies the constraints. */
  lemma EmptyStoreValid()
    ensures Valid(EmptyStore)
  {
  }

  /** Follow then unfollow: the edge is gone again, and the followee keeps the notification. Ids
      that are not uuid input make both calls reject, and nothing changes. */
  lemma FollowThenUnfollow(s: Store, followeeId: Id, followerId: Id, nid: Id)
    requires KeyUnused(s.notifications, NotificationKey, nid)
    requires IsUuid(followeeId) && IsUuid(followerId) ==>
               UserServices.FollowEdge(followerId, followeeId) !in s.follows
    ensures var s1 := UserServices.FollowAUser(s, followeeId, followerId, nid).store;
            var s2 := UserServices.UnfollowAUser(s1, followeeId, followerId).store;
            && multiset(s2.follows) == multiset(s.follows)
            && multiset(s2.notifications) == multiset(s.notifications) +
                 (if IsUuid(followeeId) && IsUuid(followerId)
                  then multiset{Notification(nid, Spelling(followeeId), UserServices.FollowedNotificationText, false)}
                  else multiset{})
            && s2 == s.(follows := s2.follows, notifications := s2.notifications)
  {
  }

  /** Like then unlike, on a post the user had not liked: the like table is as before, and the
      author keeps the notification. */
  lemma LikeThenUnlike(s: Store, postId: Id, userId: Id, nid: Id)
    requires KeyUnused(s.notifications, NotificationKey, nid)
    requires Like(postId, userId) !in s.postsLikes
    ensures var s1 := FeedServices.LikeAPost(s, postId, userId, nid).store;
            var s2 := FeedServices.UnlikeAPost(s1, postId, userId).store;
            && multiset(s2.postsLikes) == multiset(s.postsLikes)
            && s2 == s.(postsLikes := s2.postsLikes, notifications := s2.notifications)
            && |s2.notifications| == |s.notifications| + (if FeedServices.LikeAPost(s, postId, userId, nid).out.Returned? then 1 else 0)
  {
  }

  /** One like by B on A's post: viewing it shows one like, liked by B and not by C. */
  lemma OneLikeSeenByViewers(s: Store, a: User, b: User, c: Id, post: Post, nid: Id)
    requires Valid(s)
    requires KeyUnused(s.notifications, NotificationKey, nid)
    requires a in s.users && b in s.users && post in s.posts && post.authorId == a.id
    requires s.postsLikes == [] && c != b.id
    ensures var s1 := FeedServices.LikeAPost(s, post.postId, b.id, nid).store;
            && FeedServices.ViewPost(s1, post.postId, b.id).Returned?
            && FeedServices.ViewPost(s1, post.postId, b.id).value.likesNumber == 1
            && FeedServices.ViewPost(s1, post.postId, b.id).value.likedByUser
            && !FeedServices.ViewPost(s1, post.postId, c).value.likedByUser
  {
    var s1 := FeedServices.LikeAPost(s, post.postId, b.id, nid).store;
    assert s1.posts == s.posts;
    assert s1.postsLikes == [Like(post.postId, b.id)];
    assert FeedServices.LikeCount(s1.postsLikes, post.postId) == 1;
  }
}

=== FILE: tables.dfy ===
/** Relational-table primitives over `seq`: the effect of a WHERE-filtered SELECT, DELETE and UPDATE,
    `executeTakeFirst`, row counts and key uniqueness. Tables are sequences because the source's
    `follows` and `postsLikes` tables allow duplicate rows. */
module Tables {
  import opened Wrappers

  /** The rows of `xs` that satisfy `keep`, in table order. A SELECT returns the rows its WHERE accepts;
      a DELETE leaves the rows its WHERE rejects. */
  function Filter<T(!new)>(xs: seq<T>, keep: T -> bool): (r: seq<T>)
    ensures |r| <= |xs|
    ensures forall x :: multiset(r)[x] == if keep(x) then multiset(xs)[x] else 0
    ensures forall x :: x in r <==> x in xs && keep(x)
  {
    if xs == [] then []
    else
      assert xs == [xs[0]] + xs[1..];
      if keep(xs[0]) then [xs[0]] + Filter(xs[1..], keep) else Filter(xs[1..], keep)
  }

  /** The number of rows satisfying `p`, as `.filter(p).length` computes it. */
  function Count<T(!new)>(xs: seq<T>, p: T -> bool): nat {
    |Filter(xs, p)|
  }

  /** An UPDATE: every row that `sel` accepts is replaced by `change` of it, the others stay. */
  function Update<T>(xs: seq<T>, sel: T -> bool, change: T -> T): (r: seq<T>)
    ensures |r| == |xs|
    ensures forall i :: 0 <= i < |xs| ==> r[i] == if sel(xs[i]) then change(xs[i]) else xs[i]
  {
    seq(|xs|, i requires 0 <= i < |xs| => if sel(xs[i]) then change(xs[i]) else xs[i])
  }

  /** `executeTakeFirst`: the first row satisfying `p`, or None when there is none. */
  function First<T(!new)>(xs: seq<T>, p: T -> bool): (r: Option<T>)
    ensures r.None? <==> forall x :: x in xs ==> !p(x)
    ensures r.Some? ==> r.value in xs && p(r.value)
  {
    if xs == [] then None
    else if p(xs[0]) then Some(xs[0])
    else First(xs[1..], p)
  }

  /** No two rows of `xs` share a `key`: a UNIQUE or PRIMARY KEY column. */
  ghost predicate UniqueKeys<T, K>(xs: seq<T>, key: T -> K) {
    forall i, j :: 0 <= i < j < |xs| ==> key(xs[i]) != key(xs[j])
  }

  /** The key `k` is not used by any row of `xs`. */
  ghost predicate KeyUnused<T, K>(xs: seq<T>, key: T -> K, k: K) {
    forall x :: x in xs ==> key(x) != k
  }

  /** Filtering twice by the same condition is filtering once: a repeated DELETE is a no-op. */
  lemma {:induction false} FilterIdempotent<T(!new)>(xs: seq<T>, keep: T -> bool)
    ensures Filter(Filter(xs, keep), keep) == Filter(xs, keep)
    decreases |xs|
  {
    if xs != [] {
      FilterIdempotent(xs[1..], keep);
    }
  }

  /** Deleting rows keeps a key column unique. */
  lemma {:induction false} FilterKeepsUnique<T(!new), K>(xs: seq<T>, keep: T -> bool, key: T -> K)
    ensures UniqueKeys(xs, key) ==> UniqueKeys(Filter(xs, keep), key)
    decreases |xs|
  {
    if xs != [] && UniqueKeys(xs, key) {
      var rest := Filter(xs[1..], keep);
      assert UniqueKeys(xs[1..], key) by {
        forall i, j | 0 <= i < j < |xs[1..]|
          ensures key(xs[1..][i]) != key(xs[1..][j])
        {
          assert xs[1..][i] == xs[i + 1] && xs[1..][j] == xs[j + 1];
        }
      }
      FilterKeepsUnique(xs[1..], keep, key);
      if keep(xs[0]) {
        var r := [xs[0]] + rest;
        forall i, j | 0 <= i < j < |r|
          ensures key(r[i]) != key(r[j])
        {
          if i == 0 {
            assert r[j] == rest[j - 1];
            assert r[j] in xs[1..];
            var m :| 0 <= m < |xs[1..]| && xs[1..][m] == r[j];
            assert xs[m + 1] == r[j];
          } else {
            assert r[i] == rest[i - 1] && r[j] == rest[j - 1];
          }
        }
      }
    }
  }

  /** Appending a row whose key is unused keeps a key column unique. */
  lemma AppendKeepsUnique<T, K>(xs: seq<T>, x: T, key: T -> K)
    requires UniqueKeys(xs, key)
    requires KeyUnused(xs, key, key(x))
    ensures UniqueKeys(xs + [x], key)
  {
  }

  /** An UPDATE that leaves the key of every row unchanged keeps the key column unique. */
  lemma UpdateKeepsUnique<T, K>(xs: seq<T>, sel: T -> bool, change: T -> T, key: T -> K)
    requires forall x :: sel(x) ==> key(change(x)) == key(x)
    ensures UniqueKeys(xs, key) ==> UniqueKeys(Update(xs, sel, change), key)
  {
  }

  /** An UPDATE whose change keeps a row property keeps it for the whole table. */
  lemma UpdateKeepsAll<T>(xs: seq<T>, sel: T -> bool, change: T -> T, p: T -> bool)
    requires forall x :: sel(x) && p(x) ==> p(change(x))
    ensures (forall x :: x in xs ==> p(x)) ==> forall x :: x in Update(xs, sel, change) ==> p(x)
  {
    if forall x :: x in xs ==> p(x) {
      var r := Update(xs, sel, change);
      forall x | x in r
        ensures p(x)
      {
        var i :| 0 <= i < |r| && r[i] == x;
        assert p(xs[i]);
      }
    }
  }
}

=== FILE: user_providers.dfy ===
/** The request handlers of src/user/user.providers.ts that carry decisions: the registration
    validation chain and password policy, login's status mapping, and the ownership check of the
    follow, unfollow and delete handlers. A handler's result lists every status it tries to send,
    in order: the source sends again after a first reply, and only the first one reaches the client. */
module UserProviders {
  import opened Wrappers
  import opened Tables
  import opened Schema
  import opened Session
  import opened UserServices

  /** The `validator` functions the handlers call whose rules this model does not write out; they
      are uninterpreted. */
  datatype Validator = Validator(
    isEmail: string -> bool,
    normalizeEmail: string -> string)

  /** validator's `isEmpty` with its default options: the string has length 0. */
  predicate IsEmpty(text: string) {
    |text| == 0
  }

  // ---------------------------------------------------------------------------------------------
  // Password policy: `isStrongPassword` with minLength 8, minNumbers 2, minSymbols 2,
  // minLowercase 4, minUppercase 1.

  /** The character classes `isStrongPassword` counts. */
  datatype CharClass = Upper | Lower | Digit | Symbol | Other

  /** The symbol class of `isStrongPassword`. */
  const Symbols := "-#!$@\U{00A3}%^&*()_+|~=`{}[]:\";'<>?,./\\ "

  function ClassOf(c: char): CharClass {
    if 'A' <= c <= 'Z' then Upper
    else if 'a' <= c <= 'z' then Lower
    else if '0' <= c <= '9' then Digit
    else if c in Symbols then Symbol
    else Other
  }

  /** How many characters of `p` fall in class `k`. */
  function CountOf(p: string, k: CharClass): nat {
    if p == [] then 0
    else CountOf(p[..|p| - 1], k) + (if ClassOf(p[|p| - 1]) == k then 1 else 0)
  }

  const MinLength := 8
  const MinNumbers := 2
  const MinSymbols := 2
  const MinLowercase := 4
  const MinUppercase := 1

  predicate StrongPassword(p: string) {
    && |p| >= MinLength
    && CountOf(p, Digit) >= MinNumbers
    && CountOf(p, Symbol) >= MinSymbols
    && CountOf(p, Lower) >= MinLowercase
    && CountOf(p, Upper) >= MinUppercase
  }

  /** The five classes partition the characters of a password. */
  lemma {:induction false} ClassCountsPartition(p: string)
    ensures CountOf(p, Upper) + CountOf(p, Lower) + CountOf(p, Digit) + CountOf(p, Symbol)
            + CountOf(p, Other) == |p|
  {
    if p != [] {
      ClassCountsPartition(p[..|p| - 1]);
    }
  }

  /** The class minimums add up to 9, so the length minimum of 8 never decides: every password the
      policy accepts has at least 9 characters. */
  lemma StrongPasswordHasNineCharacters(p: string)
    requires StrongPassword(p)
    ensures |p| >= 9
  {
    ClassCountsPartition(p);
  }

  lemma {:induction false} CountOfAppend(p: string, q: string, k: CharClass)
    ensures CountOf(p + q, k) == CountOf(p, k) + CountOf(q, k)
    decreases |q|
  {
    if q == [] {
      assert p + q == p;
    } else {
      var q' := q[..|q| - 1];
      assert (p + q)[..|p + q| - 1] == p + q';
      CountOfAppend(p, q', k);
    }
  }

  /** Appending characters to a strong password keeps it strong. */
  lemma StrengthSurvivesAppend(p: string, q: string)
    requires StrongPassword(p)
    ensures StrongPassword(p + q)
  {
    CountOfAppend(p, q, Digit);
    CountOfAppend(p, q, Symbol);
    CountOfAppend(p, q, Lower);
    CountOfAppend(p, q, Upper);
  }

  /** The policy check as the validator library performs it: one pass tallying each class, then the
      five threshold comparisons. */
  method CheckPasswordStrength(p: string) returns (strong: bool)
    ensures strong <==> StrongPassword(p)
  {
    var upper, lower, digits, symbols := 0, 0, 0, 0;
    var i := 0;
    while i < |p|
      invariant 0 <= i <= |p|
      invariant upper == CountOf(p[..i], Upper) && lower == CountOf(p[..i], Lower)
      invariant digits == CountOf(p[..i], Digit) && symbols == CountOf(p[..i], Symbol)
    {
      assert p[..i + 1][..i] == p[..i];
      match ClassOf(p[i]) {
        case Upper => upper := upper + 1;
        case Lower => lower := lower + 1;
        case Digit => digits := digits + 1;
        case Symbol => symbols := symbols + 1;
        case Other =>
      }
      i := i + 1;
    }
    assert p[..i] == p;
    strong := |p| >= MinLength && digits >= MinNumbers && symbols >= MinSymbols
              && lower >= MinLowercase && upper >= MinUppercase;
  }

  // ---------------------------------------------------------------------------------------------
  // register

  /** The registration request body. */
  datatype RegisterBody = RegisterBody(
    name: Name,
    email: string,
    birthDate: BirthDate,
    gender: string,
    country: string,
    password: string)

  /** `invalidData`: an empty first name, last name or country, an invalid email, or a gender other
      than exactly "Male" or "Female". */
  predicate InvalidData(v: Validator, body: RegisterBody) {
    || IsEmpty(body.name.first)
    || IsEmpty(body.name.last)
    || !v.isEmail(body.email)
    || body.gender !in {"Male", "Female"}
    || IsEmpty(body.country)
  }

  /** `invalidBirthDate`: only upper bounds are checked, so zero and negative values pass. */
  predicate InvalidBirthDate(d: BirthDate) {
    d.day > 31 || d.month > 12 || d.year >= 2020
  }

  /** The three checks pass, in the order the handler runs them. */
  predicate PassesChecks(v: Validator, body: RegisterBody) {
    !InvalidData(v, body) && StrongPassword(body.password) && !InvalidBirthDate(body.birthDate)
  }

  /** What `registerUser` receives: the body with its email normalised. */
  function Normalised(v: Validator, body: RegisterBody): NewUser {
    NewUser(body.name, v.normalizeEmail(body.email), body.password, body.gender, body.country,
            body.birthDate)
  }

  /** A reply the handler sends: its status and the `message` of its body. */
  datatype Reply = Reply(status: int, message: string)

  const InvalidValuesMessage := "User is providing invalid values for required fields."
  const WeakPasswordMessage :=
    "Your password is not strong enough, it must be at least 8 characters long, with 2 numbers, 2 symbols, 4 lowercase character and at least 1 upper case character."
  const BadBirthDateMessage := "Either the date your provided is invalid or you're too young to use our app."

  /** `register`: the first failing check sends the only reply (400 for the data, 403 for the
      password, 403 with another message for the birth date). When all pass, `registerUser` runs on
      the normalised email. Its answer is sent with 200 on success, otherwise 500; when it rejects,
      the handler throws and itself sends nothing. */
  function Register(v: Validator, s: Store, body: RegisterBody, newId: Id): (r: Effect<seq<Reply>>)
    requires Fresh(newId, s.users, UserId)
    ensures |r.out| <= 1
    ensures r.out == [] <==> PassesChecks(v, body) && RegisterUser(s, Normalised(v, body), newId).out.Threw?
    ensures r.out == [Reply(400, InvalidValuesMessage)] <==> InvalidData(v, body)
    // A weak password is the reason given whatever the birth date.
    ensures r.out == [Reply(403, WeakPasswordMessage)] <==> !InvalidData(v, body) && !StrongPassword(body.password)
    ensures r.out == [Reply(403, BadBirthDateMessage)] <==>
              !InvalidData(v, body) && StrongPassword(body.password) && InvalidBirthDate(body.birthDate)
    ensures r.out != [] && r.out[0].status == 400 <==> InvalidData(v, body)
    ensures r.out != [] && r.out[0].status == 403 <==>
              !InvalidData(v, body) && (!StrongPassword(body.password) || InvalidBirthDate(body.birthDate))
    ensures !PassesChecks(v, body) ==> r.store == s
    ensures PassesChecks(v, body) ==> r.store == RegisterUser(s, Normalised(v, body), newId).store
    // Past the checks, the service's answer is sent whole: 200 on success, otherwise 500.
    ensures PassesChecks(v, body) && RegisterUser(s, Normalised(v, body), newId).out.Returned? ==>
              var answer := RegisterUser(s, Normalised(v, body), newId).out.value;
              r.out == [Reply(if answer.success then 200 else 500, answer.message)]
    // A user row is added exactly when every check passes, the normalised email is free, its values
    // fit their columns and the email as stored is free too.
    ensures |r.store.users| == |s.users| + 1 <==>
              && PassesChecks(v, body)
              && (forall u :: u in s.users ==> u.email != v.normalizeEmail(body.email))
              && StoredFields(Normalised(v, body)).Returned?
              && forall u :: u in s.users ==> u.email != StoredFields(Normalised(v, body)).value.email
    ensures r.out != [] && r.out[0].status == 200 <==> |r.store.users| == |s.users| + 1
    ensures Valid(s) ==> Valid(r.store)
  {
    if InvalidData(v, body) then Effect([Reply(400, InvalidValuesMessage)], s)
    else if !StrongPassword(body.password) then Effect([Reply(403, WeakPasswordMessage)], s)
    else if InvalidBirthDate(body.birthDate) then Effect([Reply(403, BadBirthDateMessage)], s)
    else
      var answer := RegisterUser(s, Normalised(v, body), newId);
      match answer.out
      case Threw(_) => Effect([], answer.store)
      case Returned(a) => Effect([Reply(if a.success then 200 else 500, a.message)], answer.store)
  }

  // ---------------------------------------------------------------------------------------------
  // login

  /** `login`: an invalid email is answered 400 but `logUser` still runs, and its `success` is
      answered again with 200, otherwise 403. Login writes nothing. */
  function Login(v: Validator, jwt: Jwt, s: Store, email: string, password: string, now: int)
    : (r: (seq<int>, LoginAnswer))
    ensures r.1 == LogUser(jwt, s, email, password, now)
    ensures |r.0| == if v.isEmail(email) then 1 else 2
    ensures !v.isEmail(email) ==> r.0[0] == 400
    ensures r.0[|r.0| - 1] == 200 <==> exists u :: u in s.users && u.email == email
    ensures r.0[|r.0| - 1] in {200, 403}
  {
    var badEmail := if v.isEmail(email) then [] else [400];
    var answer := LogUser(jwt, s, email, password, now);
    (badEmail + [if answer.Success() then 200 else 403], answer)
  }

  // ---------------------------------------------------------------------------------------------
  // Handlers with an ownership check: the decoded (not verified) token's userId is compared with an
  // id from the body; a mismatch sends 401 but does not return, so the service runs anyway.

  /** What a handler did: the statuses it tried to send, whether it threw (a `null` decoded token
      has no `userId`), and the store it leaves. */
  datatype HandlerRun = HandlerRun(sent: seq<int>, threw: bool, store: Store)

  /** The 400 of an empty id field. */
  function EmptyIdReply(a: Id, b: Id): seq<int> {
    if IsEmpty(a) || IsEmpty(b) then [400] else []
  }

  /** `followUser`. The only id `IsEmpty` flags is `''`, which is not uuid input, so after its 400
      the service rejects and the handler throws. */
  function FollowUser(v: Validator, jwt: Jwt, s: Store, token: string, followeeId: Id, followerId: Id,
                      notificationId: Id): (r: HandlerRun)
    requires KeyUnused(s.notifications, NotificationKey, notificationId)
    ensures r.threw <==> DecodeToken(jwt, token).None? || !IsUuid(followeeId) || !IsUuid(followerId)
    ensures r.threw ==> r.store == s
    // The service runs whether or not the ownership check failed.
    ensures DecodeToken(jwt, token).Some? ==> r.store == FollowAUser(s, followeeId, followerId, notificationId).store
    ensures 401 in r.sent <==> DecodeToken(jwt, token).Some? && DecodeToken(jwt, token).value.payload.userId != followerId
    // `followAUser` always answers success: false, so a completed follow is reported as 500.
    ensures !r.threw ==> r.sent != [] && r.sent[|r.sent| - 1] == 500
    // An empty id is answered 400 first, without returning; each status is sent at most once.
    ensures 400 in r.sent <==> IsEmpty(followeeId) || IsEmpty(followerId)
    ensures 400 in r.sent ==> r.sent[0] == 400 && r.threw && r.store == s
    ensures forall status :: status in r.sent ==> status in {400, 401, 500}
    ensures |r.sent| == (if 400 in r.sent then 1 else 0) + (if 401 in r.sent then 1 else 0) + (if r.threw then 0 else 1)
  {
    var empty := EmptyIdReply(followeeId, followerId);
    match DecodeToken(jwt, token)
    case None => HandlerRun(empty, true, s)
    case Some(claims) =>
      var unauthorized := if claims.payload.userId != followerId then [401] else [];
      var answer := FollowAUser(s, followeeId, followerId, notificationId);
      assert IsEmpty(followeeId) || IsEmpty(followerId) ==> answer == Effect(Threw(InvalidUuidSyntax), s);
      match answer.out
      case Threw(_) => HandlerRun(empty + unauthorized, true, answer.store)
      case Returned(a) =>
        HandlerRun(empty + unauthorized + [if a.success then 200 else 500], false, answer.store)
  }

  /** `unFollowUser`, likewise: after the 400 of an empty id, the service rejects. */
  function UnFollowUser(v: Validator, jwt: Jwt, s: Store, token: string, followeeId: Id, followerId: Id)
    : (r: HandlerRun)
    ensures r.threw <==> DecodeToken(jwt, token).None? || !IsUuid(followeeId) || !IsUuid(followerId)
    ensures r.threw ==> r.store == s
    ensures DecodeToken(jwt, token).Some? ==> r.store == UnfollowAUser(s, followeeId, followerId).store
    ensures 401 in r.sent <==> DecodeToken(jwt, token).Some? && DecodeToken(jwt, token).value.payload.userId != followerId
    ensures !r.threw ==> r.sent != [] && r.sent[|r.sent| - 1] == 500
    ensures 400 in r.sent <==> IsEmpty(followeeId) || IsEmpty(followerId)
    ensures 400 in r.sent ==> r.sent[0] == 400 && r.threw && r.store == s
    ensures forall status :: status in r.sent ==> status in {400, 401, 500}
    ensures |r.sent| == (if 400 in r.sent then 1 else 0) + (if 401 in r.sent then 1 else 0) + (if r.threw then 0 else 1)
  {
    var empty := EmptyIdReply(followeeId, followerId);
    match DecodeToken(jwt, token)
    case None => HandlerRun(empty, true, s)
    case Some(claims) =>
      var unauthorized := if claims.payload.userId != followerId then [401] else [];
      var answer := UnfollowAUser(s, followeeId, followerId);
      match answer.out
      case Threw(_) => HandlerRun(empty + unauthorized, true, answer.store)
      case Returned(a) =>
        HandlerRun(empty + unauthorized + [if a.success then 200 else 500], false, answer.store)
  }

  /** `deleteUsersFromSystem` */
  function DeleteUsersFromSystem(v: Validator, jwt: Jwt, s: Store, token: string, userId: Id)
    : (r: HandlerRun)
    ensures r.threw <==> DecodeToken(jwt, token).None?
    ensures r.threw ==> r.store == s
    ensures !r.threw ==> r.store == DeleteUser(s, userId).store
    ensures 401 in r.sent <==> !r.threw && DecodeToken(jwt, token).value.payload.userId != userId
    ensures !r.threw ==> r.sent != [] && r.sent[|r.sent| - 1] == 200
    // An empty id is answered 400 first, without returning; each status is sent at most once.
    ensures 400 in r.sent <==> IsEmpty(userId)
    // `''` is not uuid input: every DELETE rejects unobserved and nothing changes.
    ensures 400 in r.sent ==> r.sent[0] == 400 && r.store == s
    ensures forall status :: status in r.sent ==> status in {400, 401, 200}
    ensures |r.sent| == (if 400 in r.sent then 1 else 0) + (if 401 in r.sent then 1 else 0) + (if r.threw then 0 else 1)
  {
    var empty := if IsEmpty(userId) then [400] else [];
    match DecodeToken(jwt, token)
    case None => HandlerRun(empty, true, s)
    case Some(claims) =>
      var unauthorized := if claims.payload.userId != userId then [401] else [];
      var answer := DeleteUser(s, userId);
      HandlerRun(empty + unauthorized + [if answer.out.success then 200 else 500], false, answer.store)
  }

  /** The ownership check does not protect: a caller whose token names someone else still deletes
      the target account, and is told 401 first and 200 after. */
  lemma ForeignTokenStillDeletes(v: Validator, jwt: Jwt, s: Store, token: string, claims: Claims, victim: User)
    requires Valid(s)
    requires DecodeToken(jwt, token) == Some(claims)
    requires claims.payload.userId != victim.id
    requires victim in s.users
    ensures var r := DeleteUsersFromSystem(v, jwt, s, token, victim.id);
            && 401 in r.sent
            && victim !in r.store.users
  {
    CanonicalSpelling(victim.id);
  }
}

=== FILE: user_services.dfy ===
/** The user services of src/user/user.services.ts: registration, login, account deletion, the
    follow graph and its two listings. */
module UserServices {
  import opened Wrappers
  import opened Tables
  import opened Schema
  import opened Session

  /** The fields of the registration body that `registerUser` stores. */
  datatype NewUser = NewUser(
    name: Name,
    email: string,
    password: string,
    gender: string,
    country: string,
    birthDate: BirthDate)

  const EmailTakenMessage := "The given e-mail is not available for registration."
  const RegisteredMessage := "User registered succefully!"

  /** The values the INSERT stores in the four `varchar` columns, each through its width rule;
      one value too long rejects the whole row. */
  function StoredFields(user: NewUser): (r: Outcome<NewUser>)
    ensures r.Returned? <==>
              && Fits(EmailWidth, user.email) && Fits(PasswordWidth, user.password)
              && Fits(CountryWidth, user.country) && Fits(GenderWidth, user.gender)
    ensures r.Threw? ==> r.failure == ValueTooLong
    ensures r.Returned? ==>
              && r.value.name == user.name && r.value.birthDate == user.birthDate
              && Varchar(EmailWidth, user.email) == Returned(r.value.email)
              && Varchar(PasswordWidth, user.password) == Returned(r.value.password)
              && Varchar(CountryWidth, user.country) == Returned(r.value.country)
              && Varchar(GenderWidth, user.gender) == Returned(r.value.gender)
  {
    match (Varchar(EmailWidth, user.email), Varchar(PasswordWidth, user.password),
           Varchar(CountryWidth, user.country), Varchar(GenderWidth, user.gender))
    case (Returned(email), Returned(password), Returned(country), Returned(gender)) =>
      Returned(user.(email := email, password := password, country := country, gender := gender))
    case _ => Threw(ValueTooLong)
  }

  /** Values within their widths are stored as given. */
  lemma ShortValuesStoredVerbatim(user: NewUser)
    requires |user.email| <= EmailWidth && |user.password| <= PasswordWidth
    requires |user.country| <= CountryWidth && |user.gender| <= GenderWidth
    ensures StoredFields(user) == Returned(user)
  {
  }

  /** `registerUser`: refuses an email already in `users`. Otherwise it inserts one row with the column
      defaults `topWriter = false`, `isOnline = false`, `profileViews = 0` and the password as given
      (it is not hashed). The INSERT rejects a value too long for its column, and rejects the row on
      the UNIQUE email constraint when cutting trailing spaces makes the email a registered one. */
  function RegisterUser(s: Store, user: NewUser, newId: Id): (r: Effect<Outcome<Answer>>)
    requires Fresh(newId, s.users, UserId)
    ensures UserByEmail(s, user.email).Some? ==> r == Effect(Returned(Answer(false, EmailTakenMessage)), s)
    ensures UserByEmail(s, user.email).None? && StoredFields(user).Threw? ==>
              r == Effect(Threw(ValueTooLong), s)
    ensures UserByEmail(s, user.email).None? && StoredFields(user).Returned? &&
            UserByEmail(s, StoredFields(user).value.email).Some? ==>
              r == Effect(Threw(UniqueViolation), s)
    ensures UserByEmail(s, user.email).None? && StoredFields(user).Returned? &&
            UserByEmail(s, StoredFields(user).value.email).None? ==>
              && var stored := StoredFields(user).value;
              && r.out == Returned(Answer(true, RegisteredMessage))
              && r.store == s.(users := r.store.users)
              && multiset(r.store.users) == multiset(s.users) + multiset{
                   User(newId, stored.email, user.name, user.birthDate, stored.password, stored.gender,
                        stored.country, false, false, 0)}
    ensures r.out == Returned(Answer(true, RegisteredMessage)) <==> |r.store.users| == |s.users| + 1
    ensures r.out != Returned(Answer(true, RegisteredMessage)) ==> r.store == s
    ensures Valid(s) ==> Valid(r.store)
  {
    if UserByEmail(s, user.email).Some? then
      Effect(Returned(Answer(false, EmailTakenMessage)), s)
    else
      match StoredFields(user)
      case Threw(failure) => Effect(Threw(failure), s)
      case Returned(stored) =>
        if UserByEmail(s, stored.email).Some? then
          Effect(Threw(UniqueViolation), s)
        else
          var row := User(newId, stored.email, user.name, user.birthDate, stored.password, stored.gender,
                          stored.country, false, false, 0);
          assert Valid(s) ==> Valid(s.(users := s.users + [row])) by {
            if Valid(s) {
              AppendKeepsUnique(s.users, row, UserId);
              AppendKeepsUnique(s.users, row, UserEmail);
            }
          }
          Effect(Returned(Answer(true, RegisteredMessage)), s.(users := s.users + [row]))
  }

  /** A country longer than its 20-character column is refused by the database, even with a free
      email. */
  lemma LongCountryRejected(s: Store, user: NewUser, newId: Id)
    requires Fresh(newId, s.users, UserId)
    requires forall u :: u in s.users ==> u.email != user.email
    requires user.country == "United States of America"
    ensures RegisterUser(s, user, newId) == Effect(Threw(ValueTooLong), s)
  {
    assert user.country[CountryWidth] == 'r';
  }

  /** A second registration with an email already registered fails and changes nothing. For an email
      within its width it is the "not available" answer. */
  lemma RegisterTwiceFails(s: Store, first: NewUser, second: NewUser, id1: Id, id2: Id)
    requires Fresh(id1, s.users, UserId)
    requires RegisterUser(s, first, id1).out == Returned(Answer(true, RegisteredMessage))
    requires second.email == first.email
    requires Fresh(id2, RegisterUser(s, first, id1).store.users, UserId)
    ensures var s1 := RegisterUser(s, first, id1).store;
            && RegisterUser(s1, second, id2).store == s1
            && RegisterUser(s1, second, id2).out != Returned(Answer(true, RegisteredMessage))
            && (|first.email| <= EmailWidth ==>
                  RegisterUser(s1, second, id2).out == Returned(Answer(false, EmailTakenMessage)))
  {
  }

  /** The `id, name, email, profileViews` columns login selects. */
  datatype LoggedUser = LoggedUser(id: Id, name: Name, email: string, profileViews: int)

  /** What `logUser` resolves to. `WrongPassword` is the `success: true` "check your password" answer
      of the source's mismatch branch. */
  datatype LoginAnswer =
    | LoggedIn(data: LoggedUser, token: string)
    | WrongPassword
    | UnknownEmail
  {
    predicate Success() { !UnknownEmail? }
  }

  function LoggedUserOf(u: User): LoggedUser {
    LoggedUser(u.id, u.name, u.email, u.profileViews)
  }

  /** `logUser`: `isSamePassWord` returns a Promise that is not awaited, and a Promise is truthy, so
      the password is never compared: a known email always logs in and receives a token for
      {name, userId, email}, and the mismatch branch is dead. */
  function LogUser(jwt: Jwt, s: Store, email: string, password: string, now: int): (r: LoginAnswer)
    ensures r.UnknownEmail? <==> forall u :: u in s.users ==> u.email != email
    ensures !r.WrongPassword?
    ensures r.LoggedIn? ==>
              exists u :: u in s.users && u.email == email &&
                r == LoggedIn(LoggedUserOf(u), CreateToken(jwt, Payload(u.name, u.id, u.email), now))
  {
    match UserByEmail(s, email)
    case None => UnknownEmail
    case Some(given) =>
      // The comparison's Promise stands in for its boolean and is always truthy.
      var logged := First(s.users, (u: User) => u.email == email && u.password == given.password).value;
      LoggedIn(LoggedUserOf(logged), CreateToken(jwt, Payload(logged.name, logged.id, logged.email), now))
  }

  /** The supplied password has no influence on login. */
  lemma LoginIgnoresPassword(jwt: Jwt, s: Store, email: string, p1: string, p2: string, now: int)
    ensures LogUser(jwt, s, email, p1, now) == LogUser(jwt, s, email, p2, now)
  {
  }

  const DeletedMessage := "The user was deleted successfully from our system, you can register again any time."

  /** `deleteUser`: the five DELETEs of the un-awaited `Promise.all`, applied in sequence. Each
      compares a uuid column with the uuid `userId` spells, so for an id that is not uuid input
      every DELETE rejects; nobody awaits them, and the answer is a success all the same. */
  function DeleteUser(s: Store, userId: Id): (r: Effect<Answer>)
    ensures r.out == Answer(true, DeletedMessage)
    ensures !IsUuid(userId) ==> r.store == s
    ensures IsUuid(userId) ==>
              && (forall u :: u in r.store.users <==> u in s.users && !SameUuid(u.id, userId))
              && (forall n :: n in r.store.notifications <==> n in s.notifications && !SameUuid(n.userId, userId))
              && (forall c :: c in r.store.comments <==> c in s.comments && !SameUuid(c.authorId, userId))
              && (forall p :: p in r.store.posts <==> p in s.posts && !SameUuid(p.authorId, userId))
              // Both WHERE clauses apply to the follows DELETE: only the self-loop edge goes.
              && (forall e :: multiset(r.store.follows)[e] ==
                    if SameUuid(e.followerId, userId) && SameUuid(e.followeeId, userId) then 0
                    else multiset(s.follows)[e])
    ensures r.store == s.(users := r.store.users, notifications := r.store.notifications,
                          follows := r.store.follows, comments := r.store.comments, posts := r.store.posts)
    ensures Valid(s) ==> Valid(r.store)
  {
    if !IsUuid(userId) then Effect(Answer(true, DeletedMessage), s) else
    var id := Spelling(userId);
    var users := Filter(s.users, (u: User) => u.id != id);
    var notifications := Filter(s.notifications, (n: Notification) => n.userId != id);
    var follows := Filter(s.follows, (e: Follow) => !(e.followerId == id && e.followeeId == id));
    var comments := Filter(s.comments, (c: Comment) => c.authorId != id);
    var posts := Filter(s.posts, (p: Post) => p.authorId != id);
    FilterKeepsUnique(s.users, (u: User) => u.id != id, UserId);
    FilterKeepsUnique(s.users, (u: User) => u.id != id, UserEmail);
    FilterKeepsUnique(s.notifications, (n: Notification) => n.userId != id, NotificationKey);
    FilterKeepsUnique(s.comments, (c: Comment) => c.authorId != id, CommentKey);
    FilterKeepsUnique(s.posts, (p: Post) => p.authorId != id, PostKey);
    Effect(Answer(true, DeletedMessage),
           s.(users := users, notifications := notifications, follows := follows,
              comments := comments, posts := posts))
  }

  /** Deleting a user leaves every edge between that user and someone else in place, in both
      directions, and leaves the user's likes and reports. */
  lemma DeleteUserKeepsIncidentEdges(s: Store, userId: Id, other: Id)
    requires other != userId
    ensures var s' := DeleteUser(s, userId).store;
            && multiset(s'.follows)[Follow(userId, other)] == multiset(s.follows)[Follow(userId, other)]
            && multiset(s'.follows)[Follow(other, userId)] == multiset(s.follows)[Follow(other, userId)]
            && s'.postsLikes == s.postsLikes
            && s'.reportedPosts == s.reportedPosts
  {
  }

  /** The `name, id, isOnline` columns the follower and followee listings select. */
  datatype UserSummary = UserSummary(name: Name, id: Id, isOnline: bool)

  function Summary(u: User): UserSummary {
    UserSummary(u.name, u.id, u.isOnline)
  }

  /** The joined rows `users` contributes for one edge endpoint: one per user with that id. */
  function JoinUser(users: seq<User>, id: Id): (r: seq<UserSummary>)
    ensures forall x :: x in r <==> exists u :: u in users && u.id == id && x == Summary(u)
  {
    if users == [] then []
    else
      assert forall u :: u in users <==> u == users[0] || u in users[1..];
      (if users[0].id == id then [Summary(users[0])] else []) + JoinUser(users[1..], id)
  }

  /** `follows.where(followeeId = userId).innerJoin(users on users.id = followerId)` */
  function JoinFollowers(edges: seq<Follow>, users: seq<User>, userId: Id): (r: seq<UserSummary>)
    ensures forall x :: x in r <==>
              exists u :: u in users && Follow(u.id, userId) in edges && x == Summary(u)
  {
    if edges == [] then []
    else
      assert forall e :: e in edges <==> e == edges[0] || e in edges[1..];
      (if edges[0].followeeId == userId then JoinUser(users, edges[0].followerId) else [])
        + JoinFollowers(edges[1..], users, userId)
  }

  /** `follows.where(followerId = userId).innerJoin(users on users.id = followeeId)` */
  function JoinFollowees(edges: seq<Follow>, users: seq<User>, userId: Id): (r: seq<UserSummary>)
    ensures forall x :: x in r <==>
              exists u :: u in users && Follow(userId, u.id) in edges && x == Summary(u)
  {
    if edges == [] then []
    else
      assert forall e :: e in edges <==> e == edges[0] || e in edges[1..];
      (if edges[0].followerId == userId then JoinUser(users, edges[0].followeeId) else [])
        + JoinFollowees(edges[1..], users, userId)
  }

  /** `getAllFollowers` (resolves to `success: true` with these rows). */
  function GetAllFollowers(s: Store, userId: Id): seq<UserSummary> {
    JoinFollowers(s.follows, s.users, userId)
  }

  /** `getAllFollowees` (resolves to `success: true` with these rows). */
  function GetAllFollowees(s: Store, userId: Id): seq<UserSummary> {
    JoinFollowees(s.follows, s.users, userId)
  }

  /** With unique user ids, the join lists a user once for each user row with the id: once or not
      at all. */
  lemma {:induction false} JoinUserOnce(users: seq<User>, id: Id, u: User)
    requires UniqueKeys(users, UserId)
    requires u in users
    ensures multiset(JoinUser(users, id))[Summary(u)] == if u.id == id then 1 else 0
    decreases |users|
  {
    var head := if users[0].id == id then [Summary(users[0])] else [];
    assert JoinUser(users, id) == head + JoinUser(users[1..], id);
    assert UniqueKeys(users[1..], UserId) by {
      forall i, j | 0 <= i < j < |users[1..]|
        ensures users[1..][i].id != users[1..][j].id
      {
        assert users[1..][i] == users[i + 1] && users[1..][j] == users[j + 1];
      }
    }
    if u == users[0] {
      forall w | w in users[1..]
        ensures w.id != u.id
      {
        var k :| 0 <= k < |users[1..]| && users[1..][k] == w;
        assert users[k + 1] == w;
      }
      assert Summary(u) !in JoinUser(users[1..], id);
    } else {
      assert u in users[1..];
      var k :| 0 <= k < |users[1..]| && users[1..][k] == u;
      assert users[k + 1] == u;
      assert users[0].id != u.id;
      JoinUserOnce(users[1..], id, u);
    }
  }

  /** With unique user ids, a follower is listed once per edge: as often as the edge is stored. */
  lemma {:induction false} JoinFollowersPerEdge(edges: seq<Follow>, users: seq<User>, userId: Id, u: User)
    requires UniqueKeys(users, UserId)
    requires u in users
    ensures multiset(JoinFollowers(edges, users, userId))[Summary(u)] == multiset(edges)[Follow(u.id, userId)]
    decreases |edges|
  {
    if edges != [] {
      assert edges == [edges[0]] + edges[1..];
      JoinFollowersPerEdge(edges[1..], users, userId, u);
      if edges[0].followeeId == userId {
        JoinUserOnce(users, edges[0].followerId, u);
      }
    }
  }

  /** With unique user ids, a followee is listed once per edge: as often as the edge is stored. */
  lemma {:induction false} JoinFolloweesPerEdge(edges: seq<Follow>, users: seq<User>, userId: Id, u: User)
    requires UniqueKeys(users, UserId)
    requires u in users
    ensures multiset(JoinFollowees(edges, users, userId))[Summary(u)] == multiset(edges)[Follow(userId, u.id)]
    decreases |edges|
  {
    if edges != [] {
      assert edges == [edges[0]] + edges[1..];
      JoinFolloweesPerEdge(edges[1..], users, userId, u);
      if edges[0].followerId == userId {
        JoinUserOnce(users, edges[0].followeeId, u);
      }
    }
  }

  /** The two listings are mirror images: between two existing users, `a` is listed among `b`'s
      followers exactly when `b` is listed among `a`'s followees, and both hold exactly when the
      edge (a, b) is stored. */
  lemma FollowersFolloweesDual(s: Store, a: User, b: User)
    requires a in s.users && b in s.users
    ensures Summary(a) in GetAllFollowers(s, b.id) <==> Follow(a.id, b.id) in s.follows
    ensures Summary(b) in GetAllFollowees(s, a.id) <==> Follow(a.id, b.id) in s.follows
  {
  }

  const AlreadyFollowingMessage := "You're already following this user."
  const NowFollowingMessage := "You're now following this user."
  const FollowedNotificationText := "Someone followed you."

  /** The follows row for two uuid inputs, as PostgreSQL compares and stores it. */
  function FollowEdge(followerId: Id, followeeId: Id): Follow
    requires IsUuid(followerId) && IsUuid(followeeId)
  {
    Follow(Spelling(followerId), Spelling(followeeId))
  }

  /** `followAUser`: the awaited SELECT compares the uuid columns with both ids, so an id that is not
      uuid input rejects the call before any write. An existing (follower, followee) edge, in any
      spelling of the two uuids, makes it a no-op; otherwise the edge and one unread notification
      for the followee are inserted (the un-awaited `Promise.all`, in sequence). Self-follow is
      allowed and both paths answer `success: false`. */
  function FollowAUser(s: Store, followeeId: Id, followerId: Id, notificationId: Id)
    : (r: Effect<Outcome<Answer>>)
    requires KeyUnused(s.notifications, NotificationKey, notificationId)
    ensures !IsUuid(followeeId) || !IsUuid(followerId) ==> r == Effect(Threw(InvalidUuidSyntax), s)
    ensures r.out.Returned? ==> !r.out.value.success
    ensures IsUuid(followeeId) && IsUuid(followerId) && FollowEdge(followerId, followeeId) in s.follows ==>
              r == Effect(Returned(Answer(false, AlreadyFollowingMessage)), s)
    ensures IsUuid(followeeId) && IsUuid(followerId) && FollowEdge(followerId, followeeId) !in s.follows ==>
              && r.out == Returned(Answer(false, NowFollowingMessage))
              && r.store == s.(follows := r.store.follows, notifications := r.store.notifications)
              && multiset(r.store.follows) == multiset(s.follows) + multiset{FollowEdge(followerId, followeeId)}
              && multiset(r.store.notifications) == multiset(s.notifications) +
                   multiset{Notification(notificationId, Spelling(followeeId), FollowedNotificationText, false)}
    ensures Valid(s) ==> Valid(r.store)
  {
    if !IsUuid(followeeId) || !IsUuid(followerId) then
      Effect(Threw(InvalidUuidSyntax), s)
    else if FollowEdge(followerId, followeeId) in s.follows then
      Effect(Returned(Answer(false, AlreadyFollowingMessage)), s)
    else
      var note := Notification(notificationId, Spelling(followeeId), FollowedNotificationText, false);
      assert Valid(s) ==> Valid(s.(follows := s.follows + [FollowEdge(followerId, followeeId)],
                                   notifications := s.notifications + [note])) by {
        if Valid(s) {
          AppendKeepsUnique(s.notifications, note, NotificationKey);
        }
      }
      Effect(Returned(Answer(false, NowFollowingMessage)),
             s.(follows := s.follows + [FollowEdge(followerId, followeeId)],
                notifications := s.notifications + [note]))
  }

  /** Following twice: the second call answers "already following" and changes nothing. */
  lemma FollowTwiceChangesNothing(s: Store, followeeId: Id, followerId: Id, n1: Id, n2: Id)
    requires KeyUnused(s.notifications, NotificationKey, n1)
    requires KeyUnused(FollowAUser(s, followeeId, followerId, n1).store.notifications, NotificationKey, n2)
    ensures var s1 := FollowAUser(s, followeeId, followerId, n1).store;
            FollowAUser(s1, followeeId, followerId, n2) ==
              if IsUuid(followeeId) && IsUuid(followerId)
              then Effect(Returned(Answer(false, AlreadyFollowingMessage)), s1)
              else Effect(Threw(InvalidUuidSyntax), s1)
  {
  }

  /** Following by the upper-case spelling of stored ids after following by the stored ids answers
      "already following": the SELECT compares uuids, not texts. */
  lemma FollowInOtherCaseChangesNothing(s: Store, followee: Id, follower: Id, n1: Id, n2: Id)
    requires Canonical(followee) && Canonical(follower)
    requires KeyUnused(s.notifications, NotificationKey, n1)
    requires KeyUnused(FollowAUser(s, followee, follower, n1).store.notifications, NotificationKey, n2)
    ensures var s1 := FollowAUser(s, followee, follower, n1).store;
            FollowAUser(s1, UpperCase(followee), UpperCase(follower), n2) ==
              Effect(Returned(Answer(false, AlreadyFollowingMessage)), s1)
  {
    UpperCaseSameUuid(followee);
    UpperCaseSameUuid(follower);
    CanonicalSpelling(followee);
    CanonicalSpelling(follower);
  }

  const NoLongerFollowingMessage := "You're no longer following this user."

  /** `unfollowAUser`: the awaited DELETE rejects for an id that is not uuid input; otherwise it
      deletes every (follower, followee) edge and nothing else. */
  function UnfollowAUser(s: Store, followeeId: Id, followerId: Id): (r: Effect<Outcome<Answer>>)
    ensures !IsUuid(followeeId) || !IsUuid(followerId) ==> r == Effect(Threw(InvalidUuidSyntax), s)
    ensures IsUuid(followeeId) && IsUuid(followerId) ==> r.out == Returned(Answer(false, NoLongerFollowingMessage))
    ensures r.store == s.(follows := r.store.follows)
    ensures IsUuid(followeeId) && IsUuid(followerId) ==>
              forall e :: multiset(r.store.follows)[e] ==
                if SameUuid(e.followerId, followerId) && SameUuid(e.followeeId, followeeId) then 0
                else multiset(s.follows)[e]
    ensures Valid(s) ==> Valid(r.store)
  {
    if !IsUuid(followeeId) || !IsUuid(followerId) then
      Effect(Threw(InvalidUuidSyntax), s)
    else
      Effect(Returned(Answer(false, NoLongerFollowingMessage)),
             s.(follows := Filter(s.follows, (e: Follow) => e != FollowEdge(followerId, followeeId))))
  }

  /** Unfollowing twice is unfollowing once. */
  lemma UnfollowIdempotent(s: Store, followeeId: Id, followerId: Id)
    ensures var s1 := UnfollowAUser(s, followeeId, followerId).store;
            UnfollowAUser(s1, followeeId, followerId).store == s1
  {
    if IsUuid(followeeId) && IsUuid(followerId) {
      FilterIdempotent(s.follows, (e: Follow) => e != FollowEdge(followerId, followeeId));
    }
  }

  /** `followingThisUser`: the query's Promise is never awaited and a Promise is truthy, so the
      answer is true for every pair. */
  function FollowingThisUser(s: Store, followerId: Id, followeeId: Id): (r: bool)
    ensures r
  {
    true
  }

  /** `followingThisUser` reports an edge that is not stored. */
  lemma FollowingThisUserWithoutEdge(s: Store, followerId: Id, followeeId: Id)
    requires Follow(followerId, followeeId) !in s.follows
    ensures FollowingThisUser(s, followerId, followeeId)
  {
  }
}

=== FILE: wrappers.dfy ===
/** The optional value used wherever the source reads `executeTakeFirst()` (a row or `undefined`)
    or a value that may be `null`. */
module Wrappers {
  datatype Option<+T> = None | Some(value: T)
}
